=== FILE: README.md ===
# High-conviction trading strategy, modelled in Dafny

This project models `HighConvictionUltraProfitStrategy`, a spot-trading strategy written in Python, together with the `_as_bool` configuration helper.

On every market tick the strategy runs the following steps in order:

1. It records the price.
2. It requires enough price history.
3. It raises its recorded portfolio peak.
4. It applies two risk gates: the trade count and spacing, then the drawdown and consecutive losses.
5. It scores the market from the RSI, the Bollinger bands and the MACD, and requires the score to clear a conviction threshold.
6. It picks a direction and checks it against its own position.
7. It applies the exit overrides: a trailing stop, plus stop-loss, take-profit and time exits written as unreachable `elif` branches.
8. It sizes and executes a buy or a sell.

Executed trades are reported back through `on_trade`, which keeps a win/loss history, a loss streak and a performance score. The state can be saved with `get_state` and restored with `set_state`.

The model is built from pure functions over immutable records:

- `Types` holds the configuration, the market snapshot, the portfolio, the signal and the strategy state.
- `Flags` models `_as_bool`.
- `Indicators` holds the SMA, RSI, Bollinger bands, EMA, MACD and volatility.
- `Scoring` holds the conviction score and the position size.
- `Risk` holds the two gates.
- `Strategy` models `generate_signal` and `on_trade`, the invariant they keep, and whole runs of ticks and trade reports.
- `Persistence` models `get_state` and `set_state`.
- `Common` holds the shared helpers.

Numbers are exact reals. Timestamps are whole seconds, and the current time is a parameter.

Several behaviours of the code are proved as they are written:

- The MACD signal line is built from a constant list, so in exact arithmetic the histogram is always 0 and the MACD never contributes to the score.
- With positive prices (the current price and every price in the history) and a non-negative band width multiplier (`bb_std`), the conviction score therefore never exceeds 0.7 in absolute value. On such markets, with the default threshold of 0.9, the strategy never trades, not even through its trailing stop, which is only reached past the threshold. Both conditions are needed: "## Left out" shows a market with negative prices on which the code buys under the default configuration.
- The trailing high is always set when the exits are checked. The stop-loss, take-profit and time exits are therefore never taken.
- A sell clears the entry price before `on_trade` hears of it. The report of an executed sell therefore records no outcome.
- The peak is raised before the drawdown gate sees the portfolio value. The gate's reset of the loss streak on a new high therefore never fires inside a tick.
- `set_state` keeps the instance's previous entry and last-trade times when the snapshot has none.

## Model

| member | source | states |
|---|---|---|
| Flags.AsBool | your-strategy-template/your_strategy.py:46-53 | None gives the default and a bool is returned as is. Any other value is true exactly when its stripped, lower-cased text is "1", "true", "yes" or "on". A true text is 1 to 4 characters after stripping. |
| Flags.NormalizeIdempotent | your-strategy-template/your_strategy.py:52-53 | Stripping and lower-casing twice is the same as once, so parsing an already normalised text gives the same answer. |
| Flags.PaddingAndCaseIgnored | your-strategy-template/your_strategy.py:52-53 | Whitespace added on either side of a text, and any change in the case of its ASCII letters, leave its normalised form and its reading as a boolean unchanged, whatever the default. So " TRUE\n" reads like "true". |
| Flags.NormalizeOfPlain | your-strategy-template/your_strategy.py:52-53 | Text without whitespace or upper-case letters is compared as written. |
| Flags.DecimalOneIsFalse | your-strategy-template/your_strategy.py:52-53 | Only the four exact words count: a decimal such as "1.0" parses as false even when the default is true. |
| Indicators.Sma | your-strategy-template/your_strategy.py:135-139 | There is no average exactly when there are fewer prices than the window. Otherwise the average times the window equals the sum of the last `window` prices. |
| Indicators.SmaBounded | your-strategy-template/your_strategy.py:135-139 | The average of the last `window` prices lies within any bounds those prices share. |
| Indicators.SmaPositive | your-strategy-template/your_strategy.py:135-139 | The average of positive prices is positive. |
| Indicators.TotalGain | your-strategy-template/your_strategy.py:145-148 | The total gain is the sum, over the last `period` price changes, of each change that is positive (0 for the others). It is non-negative. |
| Indicators.TotalLoss | your-strategy-template/your_strategy.py:145-149 | The total loss is the sum, over the last `period` price changes, of the size of each change that is negative (0 for the others). It is non-negative. |
| Indicators.GainsMinusLosses | your-strategy-template/your_strategy.py:146-149 | Over any list of changes, the summed gains minus the summed losses is the summed change. |
| Indicators.DeltasTelescope | your-strategy-template/your_strategy.py:145 | The consecutive changes of a price list add up to its last price minus its first. |
| Indicators.RecentDeltas | your-strategy-template/your_strategy.py:145-147 | The last `period` changes are the changes of the last `period + 1` prices. |
| Indicators.RsiTelescope | your-strategy-template/your_strategy.py:145-149 | The total gain minus the total loss is the last price minus the price `period` changes earlier, so the totals account for how the prices moved. |
| Indicators.NoLossIffNeverFalls | your-strategy-template/your_strategy.py:145-149 | The total loss is 0 exactly when no step of the last `period` changes goes down. |
| Indicators.NoGainIffNeverRises | your-strategy-template/your_strategy.py:145-148 | The total gain is 0 exactly when no step of the last `period` changes goes up. |
| Indicators.Rsi | your-strategy-template/your_strategy.py:141-158 | There is no RSI exactly when there are fewer than period+1 prices. Otherwise the RSI lies in [0, 100]. It is 100 for gains without losses and 50 for no movement. When there are losses it equals 100·G/(G+L), where G and L are the summed gains and losses. |
| Indicators.RsiValue | your-strategy-template/your_strategy.py:150-158 | From non-negative summed gains G and losses L, the RSI lies in [0, 100]. It is 100 when L is 0 and G is positive, 50 when both are 0, and 100·G/(G+L) below 100 otherwise; in that case it is 0 exactly when G is 0. |
| Indicators.RsiExtremes | your-strategy-template/your_strategy.py:151-158 | The RSI is 100 exactly when there are gains and no losses. It is 0 exactly when there are losses and no gains. |
| Indicators.RsiDirection | your-strategy-template/your_strategy.py:141-158 | The RSI is 100 exactly when the last `period` changes never go down and the last price is above the price `period` changes earlier. It is 0 exactly when they never go up and the last price is below it. So a rising window reads 100 and a falling one 0. |
| Indicators.RsiOfFlatPrices | your-strategy-template/your_strategy.py:151-152 | Constant prices give an RSI of exactly 50. |
| Indicators.Variance | your-strategy-template/your_strategy.py:169 | The variance times the period is the sum of the squared deviations of the last `period` prices from the given mean. It is non-negative. |
| Indicators.Square | your-strategy-template/your_strategy.py:169 | A squared deviation is never negative and is 0 exactly for a zero deviation. |
| Indicators.DeviationsZeroIff | your-strategy-template/your_strategy.py:169 | The squared deviations of a list sum to 0 exactly when every value equals the mean. |
| Indicators.VarianceZeroIff | your-strategy-template/your_strategy.py:169 | The variance is 0 exactly when every price of the last `period` equals the mean. |
| Indicators.BollingerBands | your-strategy-template/your_strategy.py:160-175 | There are no bands exactly when the history is shorter than the period. The middle band is the SMA, and the upper and lower bands lie symmetrically around it, at `bb_std` times the square root of the variance about the middle band. With a non-negative width, lower ≤ middle ≤ upper. |
| Indicators.Smoothing | your-strategy-template/your_strategy.py:187 | The EMA factor 2/(period+1) lies in (0, 1], and equals 1 exactly for period 1. |
| Indicators.Ema | your-strategy-template/your_strategy.py:183-191 | There is no EMA exactly when the data is shorter than the period. Its value is pinned down by `EmaLastStep`. |
| Indicators.EmaFoldAppend | your-strategy-template/your_strategy.py:188-190 | Folding one more price x into the recurrence gives x·k plus (1 − k) times the previous result, the loop body's update. |
| Indicators.EmaLastStep | your-strategy-template/your_strategy.py:183-191 | For a period above 1, the EMA is the last price times k = 2/(period+1), plus (1 − k) times the recurrence seeded with `data[-period]` over the prices between the seed and the last one. |
| Indicators.EmaFoldBounded | your-strategy-template/your_strategy.py:188-190 | The EMA recurrence keeps any range shared by its seed and the prices it folds. |
| Indicators.EmaFoldUnitSmoothing | your-strategy-template/your_strategy.py:188-190 | With factor 1 the recurrence ends on the last folded price. |
| Indicators.EmaBounded | your-strategy-template/your_strategy.py:183-191 | The EMA lies within any bounds of the last `period` values. This includes period 1, whose slice `data[-period+1:]` is the whole list. |
| Indicators.EmaOfPeriodOne | your-strategy-template/your_strategy.py:183-191 | The EMA with period 1 is the last price. |
| Indicators.Macd | your-strategy-template/your_strategy.py:177-205 | There is no MACD exactly when there are fewer than slow+signal prices or fewer than fast prices. The MACD line is EMA(fast) − EMA(slow). The signal line equals the MACD line, so the histogram is 0. |
| Indicators.SimpleReturns | your-strategy-template/your_strategy.py:211-216 | A window of n prices gives at most n−1 returns, and none for n ≤ 1. |
| Indicators.SimpleReturnsOfPositive | your-strategy-template/your_strategy.py:213-216 | For positive prices no base is skipped, so there are exactly n−1 returns, and the i-th is (w[i+1] − w[i]) / w[i]. |
| Indicators.Volatility | your-strategy-template/your_strategy.py:207-221 | There is no volatility exactly when the history is shorter than the window. It is non-negative. It is 0 when there are fewer than two returns, and so always for a window of at most 2. |
| Scoring.RsiComponent | your-strategy-template/your_strategy.py:234-246 | The RSI contribution lies in [−0.4, 0.4], is positive exactly with an oversold tag, negative exactly with an overbought tag, and 0 without a tag. The oversold tag appears exactly when the RSI exists and lies below the oversold level; its value is then 0.4·(oversold − RSI)/oversold. The overbought tag appears exactly when the RSI is not below the oversold level and lies above the overbought level; its value is then −0.4·(RSI − overbought)/(100 − overbought). |
| Scoring.RsiTermMonotone | your-strategy-template/your_strategy.py:237-245 | Between two histories with an RSI, the one with the lower RSI never gets a smaller RSI contribution. |
| Scoring.BandScore | your-strategy-template/your_strategy.py:253-259 | The distance to a positive band, doubled and capped at 1, lies in (0, 1]. |
| Scoring.BandTerm | your-strategy-template/your_strategy.py:252-260 | For a positive price, the band term lies in [−0.3, 0.3]. It is tagged oversold exactly when the price is below the lower band, with value 0.3 times the band score of the gap to the lower band. It is tagged overbought exactly when the price is not below the lower band and is above the upper band, with value −0.3 times the band score of the gap to the upper band. Otherwise it is 0 with no tag. |
| Scoring.BbComponent | your-strategy-template/your_strategy.py:248-260 | The band contribution lies in [−0.3, 0.3], is positive exactly with a below-the-lower-band tag and negative exactly with an above-the-upper-band tag. Each tag appears exactly when the bands of the configured period exist and the current price lies beyond the corresponding band. When the bands exist, the upper band is positive and the contribution is the band term of the current price against them. |
| Scoring.MacdComponent | your-strategy-template/your_strategy.py:262-275 | The MACD contributes nothing and records no tag, because the histogram is never non-zero. |
| Scoring.Combine | your-strategy-template/your_strategy.py:231-279 | Adding a bounded RSI part, a bounded band part and a zero MACD part gives a score in [−0.7, 0.7] with at most two tags and no MACD tag. A positive score carries a bullish tag and a negative one a bearish tag. The score is the RSI part plus the band part, and the evidence is the RSI tag followed by the band tag. |
| Scoring.HighConvictionSignal | your-strategy-template/your_strategy.py:225-279 | A short history scores 0 with "insufficient data". Otherwise the score lies in [−0.7, 0.7], and equals the RSI contribution plus the band contribution of the market, with the RSI tag and then the band tag as evidence. There are at most two tags, and none of them is a MACD tag. A positive score comes with a bullish tag and a negative score with a bearish tag. |
| Scoring.QuietMarketScoresZero | your-strategy-template/your_strategy.py:231-279 | With enough history, an RSI that is missing or between the two levels, and a price inside existing bands, the score is 0 with no evidence (the source's "no_conviction"). |
| Scoring.PerformanceFactor | your-strategy-template/your_strategy.py:293-301 | The factor is 0.7 exactly when at least 5 outcomes are recorded and fewer than 4 of the last 5 are wins; otherwise it is 1.0. |
| Scoring.Adjustment | your-strategy-template/your_strategy.py:293-313 | The product of the performance and volatility factors is positive. |
| Scoring.VolatilityRegimes | your-strategy-template/your_strategy.py:304-314 | The volatility factor is 0.8 exactly for a volatility above 0.03, 1.2 exactly for one below 0.01, and 1.0 exactly when there is no volatility or it lies in [0.01, 0.03]. |
| Scoring.VolatilityFactorNonIncreasing | your-strategy-template/your_strategy.py:304-314 | A calmer market never gets a smaller volatility factor. |
| Scoring.AdjustmentBounds | your-strategy-template/your_strategy.py:294-316 | The adjustment lies in [0.56, 1.2], from poor results in a volatile market to good results in a calm one. It is exactly 1 when both factors are 1. |
| Scoring.OptimalPositionSize | your-strategy-template/your_strategy.py:281-320 | The size is at least 0.05. It is at most the maximum fraction when that is at least 0.05, and exactly 0.05 when it is not. An unclamped raw size is returned unchanged. |
| Scoring.ScaledTiers | your-strategy-template/your_strategy.py:286-291 | For any adjustment (and so for the raw size, which is the base size scaled at the current market's and outcome history's adjustment), a score of at least 0.9 gives the multiplier times the size of a score below 0.8, and a score in [0.8, 0.9) gives 1.5 times it. |
| Scoring.ScaledSizeMonotone | your-strategy-template/your_strategy.py:286-317 | For any non-negative adjustment and a multiplier of at least 1.5, a higher score never scales the base size by less. |
| Scoring.PositionSizeMonotone | your-strategy-template/your_strategy.py:281-320 | With a multiplier of at least 1.5, a higher score never gives a smaller position. |
| Risk.TradeLimitsReadCounters | your-strategy-template/your_strategy.py:322-335 | The trade limits read only the trade count and the last trade time: two states that agree on those get the same answer. |
| Risk.CheckTradeLimits | your-strategy-template/your_strategy.py:322-335 | The count limit is checked first: the answer is "max trades reached" exactly when the count is at the limit or above it. A refusal for spacing reports the elapsed seconds, which are below the interval. A tick is admitted exactly when the count is under the limit and the last trade, if any, lies at least the configured hours back. |
| Risk.AdmissionPersists | your-strategy-template/your_strategy.py:322-335 | Admission is never lost by waiting. A spacing refusal turns into admission once the interval has passed. |
| Risk.CheckDrawdownLimits | your-strategy-template/your_strategy.py:337-365 | The first call records the value as the peak and passes. Later calls raise the peak to the maximum, and only the peak and the loss streak change. The gate passes exactly when the streak is under its limit and the drawdown is within bounds. The streak is pinned in every case: a new high first clears it; then a value below the entry after a "sell" adds one, a value above the entry while long clears it, and otherwise it stays. |
| Risk.DrawdownFloor | your-strategy-template/your_strategy.py:349-363 | With a positive peak, any value below (1 − max drawdown) × peak fails the gate. |
| Risk.StreakUntouchedWhenFlat | your-strategy-template/your_strategy.py:352-356 | Without an entry price, a value at or below the peak leaves the state unchanged. |
| Strategy.RecordPrice | your-strategy-template/your_strategy.py:373-376 | The price history gains the current price as its last entry and keeps the newest min(n+1, 200) entries, where n is its previous length. |
| Strategy.Direction | your-strategy-template/your_strategy.py:408-419 | The intent is a buy exactly when the score is positive and the strategy is not long, and a sell exactly when the score is not positive and it is long. A trade carries the conviction reason. A hold is "already long" exactly for a positive score and "nothing to sell" exactly for a non-positive one. |
| Strategy.RaiseHigh | your-strategy-template/your_strategy.py:427-428 | The new trailing high is at least the price and at least the old high, and it is one of the two. |
| Strategy.ApplyExits | your-strategy-template/your_strategy.py:421-450 | Only a long position with an entry price is affected. The trailing high is raised. A price at or below high × (1 − trailing stop) becomes a trailing-stop sell; above it, the intent stands. The stop-loss, take-profit and time exits never replace the intent. |
| Strategy.ExecuteBuy | your-strategy-template/your_strategy.py:452-474 | A buy goes ahead exactly when there is cash. Its size times the price equals the cash times the optimal fraction. It opens the position at the current price and counts one trade. |
| Strategy.ExecuteSell | your-strategy-template/your_strategy.py:476-492 | A sell goes ahead exactly when units are held, and sells all of them. It clears the position and counts one trade. A stop exit is remembered as the last signal "sell"; any other sell leaves no last signal. |
| Strategy.Proceed | your-strategy-template/your_strategy.py:408-496 | After the threshold, only the position fields and trade bookkeeping change. The result is a buy exactly when the score is positive, the strategy is not long and there is cash. It is a sell exactly when the strategy is long, holds units, and either the score is not positive or the trailing stop is hit. A hit trailing stop with units to sell always gives the trailing-stop reason. A hold changes no position field except raising the trailing high. No stop-loss, take-profit or time-exit reason ever appears. |
| Strategy.Decide | your-strategy-template/your_strategy.py:401-406 | When the absolute conviction score reaches the threshold, the tick proceeds to direction, exits and execution on that score. Below it the tick is a low-conviction hold that changes nothing. Any conviction reason carries the score. Only the position fields and trade bookkeeping change, and no stop-loss, take-profit or time exit is signalled. |
| Strategy.Gates | your-strategy-template/your_strategy.py:383-399 | Only the peak and the loss streak change. The peak ends at or above the portfolio value. A stop is a hold for a trade limit or the drawdown. The gates pass exactly when the trade limits admit the tick and the drawdown gate, met with the peak raised to the value, passes. Passing continues with the state that gate leaves. |
| Strategy.Admit | your-strategy-template/your_strategy.py:373-399 | Before any indicator, only the price history, the peak and the loss streak change. A short history stops with a hold that only records the price. A stop is a hold for insufficient data, a trade limit or the drawdown. Passing needs enough history and an admission under the trade limits. Without an entry price the streak is untouched. |
| Strategy.AdmitPassesGates | your-strategy-template/your_strategy.py:373-399 | A tick passes the gates exactly when the history is long enough, the trade limits admit it and the drawdown gate passes with the peak raised to the portfolio value; it then continues with the state that gate leaves. |
| Strategy.GenerateSignal | your-strategy-template/your_strategy.py:369-496 | The price is always recorded. A short history gives a hold with only the price recorded. A trade needs enough history, admission under the trade limits, and a conviction or trailing-stop reason. A conviction reason carries the market's score at or beyond the threshold. The outcome history and performance score are untouched. No stop-loss, take-profit or time exit is ever signalled. |
| Strategy.HoldKeepsPosition | your-strategy-template/your_strategy.py:369-496 | A tick that holds has size 0 and keeps the trade count, the last signal, the entry, its time and the last-trade time. When flat it keeps the trailing high; when long it only raises it. |
| Strategy.GatedTickDecides | your-strategy-template/your_strategy.py:383-406 | Once the look-back, the trade limits and the drawdown gate are passed, a score at or beyond the threshold proceeds from the state the gate left, and a score below it gives a low-conviction hold in that state. |
| Strategy.GenerateSignalBuys | your-strategy-template/your_strategy.py:383-474 | Past the look-back, the trade limits and the drawdown gate, a positive score at or beyond the threshold buys whenever the strategy is not long and has cash. |
| Strategy.TradeNeedsRiskGates | your-strategy-template/your_strategy.py:383-399 | A trade only happens when the loss-streak and drawdown gate held: once the raised peak is non-zero, the streak after the trade is under its limit and the drawdown from the peak is within the maximum. A buy also needs the streak it started from to be under the limit. |
| Strategy.BuyOpensPosition | your-strategy-template/your_strategy.py:408-474 | A buy comes only from a state that is not long, with cash and a positive score. It opens the position at the current price, with entry and last-trade times set to now, and counts one trade. |
| Strategy.SellClosesPosition | your-strategy-template/your_strategy.py:413-492 | A sell comes only from a long state holding units, and sells all of them. It clears the entry, its time and the trailing high, and counts one trade. The last signal becomes "sell" exactly for a trailing stop and is cleared for a conviction sell. |
| Strategy.FlatTickKeepsStreak | your-strategy-template/your_strategy.py:386-399 | Because the peak is raised first, the drawdown gate's new-high reset never fires within a tick. Without an entry price the loss streak passes through a tick unchanged. |
| Strategy.RecordOutcome | your-strategy-template/your_strategy.py:506-509 | The outcome becomes the last entry and the older entries are the newest of the previous history. The length grows by one until it reaches 100, then stays put, because one entry is dropped per append. |
| Strategy.OnTrade | your-strategy-template/your_strategy.py:498-522 | Only an executed sell with a truthy entry price changes anything: the outcome history, the loss streak (reset on a win, extended on a loss) and the performance score. A history of at most 100 entries stays within 100. A win raises the score by exactly 0.05 when it is at most 1.15, and otherwise sets it to 1.2. A loss lowers it by exactly 0.1 when it is at least 0.9, and otherwise sets it to 0.8. The score stays in [0.8, 1.2]; a win never lowers it and a loss lowers it unless it is at the floor. |
| Strategy.InitConsistent | your-strategy-template/your_strategy.py:101-120 | The freshly constructed state satisfies the invariant: long exactly with an entry price, and so on. |
| Strategy.AdmitKeepsConsistent | your-strategy-template/your_strategy.py:373-399 | The gates keep the invariant, and a tick they pass still has room for a trade. |
| Strategy.ProceedKeepsConsistent | your-strategy-template/your_strategy.py:408-496 | The decision stage keeps the invariant: the entry is positive, the trailing high is at or above the entry, trades stay within budget, and a flat state has nothing left over. |
| Strategy.GenerateSignalKeepsConsistent | your-strategy-template/your_strategy.py:369-496 | A tick keeps the invariant. |
| Strategy.OnTradeKeepsConsistent | your-strategy-template/your_strategy.py:498-522 | A trade report keeps the invariant: the outcome history stays within 100, the streak stays non-negative and the score stays in [0.8, 1.2]. |
| Strategy.ApplyEvent | your-strategy-template/your_strategy.py:369-522 | Any tick or trade report leads from a consistent state to a consistent one. |
| Strategy.Run | your-strategy-template/your_strategy.py:369-522 | Every state reachable by ticks and reports is consistent, so trades never exceed the maximum. The trade count never decreases along a run. |
| Strategy.StepNeverLowersTradeCount | your-strategy-template/your_strategy.py:452-492 | No event lowers the trade count. |
| Strategy.HighThresholdAlwaysHolds | your-strategy-template/your_strategy.py:401-406 | With a threshold above 0.7, every tick on a market with positive prices holds and counts no trade, whatever the state or portfolio. |
| Strategy.DefaultConfigNeverTrades | your-strategy-template/your_strategy.py:74 | Under the default configuration, a run from a flat, untraded state over markets with positive prices never trades and never goes long. |
| Strategy.SellReportRecordsNothing | your-strategy-template/your_strategy.py:476-522 | Reporting the execution of a sell that a tick just produced leaves the state unchanged. |
| Strategy.TickAndReport | your-strategy-template/your_strategy.py:369-522 | A tick followed by the report of its own signal ends where the tick ended. The outcome history and performance score are unchanged. |
| Strategy.ProtocolNeverRecordsOutcomes | your-strategy-template/your_strategy.py:293-301 | Driven tick-then-report from an empty outcome history, the history stays empty and the performance factor stays 1.0. |
| Strategy.NextRoundUsable | your-strategy-template/your_strategy.py:421-424 | A round never leaves a long state with a zero entry price, so the next tick's price-change division is defined. |
| Persistence.TrimOutcomes | your-strategy-template/your_strategy.py:536 | The saved outcomes are the newest 50, or all of them when there are fewer. |
| Persistence.GetState | your-strategy-template/your_strategy.py:524-538 | Every counter and score key is written. The saved outcome history is at most 50 entries and is a suffix of the full history. It is the whole history when that has at most 50 entries. Timestamps are saved exactly when they are set. |
| Persistence.SetState | your-strategy-template/your_strategy.py:540-556 | The price history is untouched. A timestamp absent from the snapshot keeps the instance's own. An empty snapshot gives the initial state, apart from those two. |
| Persistence.RoundTrip | your-strategy-template/your_strategy.py:524-556 | Restoring a snapshot of one state into any instance gives that state back, except for three things. The price history stays the instance's. The outcome history is cut to 50. Timestamps the state lacked stay as the instance had them. |
| Persistence.RestoreIntoSelf | your-strategy-template/your_strategy.py:524-556 | Saving and restoring into the same instance only trims the outcome history. It is the identity when that history has at most 50 entries. |
| Persistence.SaveAfterRestore | your-strategy-template/your_strategy.py:524-556 | Saving a restored state reproduces the snapshot, except for timestamps the snapshot lacked. When both timestamps are set it reproduces the snapshot exactly. |
| Persistence.TrimTwice | your-strategy-template/your_strategy.py:536 | Trimming the outcome history is idempotent. |
| Persistence.StaleEntryTimeSurvives | your-strategy-template/your_strategy.py:543-546 | Restoring a snapshot of a flat state into an instance that held an entry time clears the entry price but keeps that stale time. |

## Left out

- Logging (`_log_local`, the logger and the `strategy_local_logs` flag's effect), the module path setup and the `register_strategy` call: these have no effect on decisions.
- Reading the configuration dictionary (`float(...)`/`int(...)` conversions in the constructor): the configuration is a record of already converted values, and `DefaultConfig` holds the constructor's defaults.
- The exchange handle passed to the constructor: the strategy never uses it.
- Floating point: all arithmetic is exact real arithmetic, so rounding is not modelled. Neither is the formatting of reasons and scores into strings; reasons are a datatype with one constructor per message.
- `math.sqrt` and `statistics.pstdev`: these are parameters (`Numerics`) known only to return non-negative numbers. Properties that need their exact values are not stated.
- `datetime.now`, ISO formatting and `fromisoformat`: time is an integer count of seconds passed in by the caller. The saved text keeps seconds precision, so the round trip through it is the identity here. Sub-second precision is lost by the saved text and is not modelled.
- The configuration is restricted to indicator periods of at least 1 and a non-negative band width multiplier (`ValidConfig`). The code accepts more, and behaves as follows on what the model leaves out:
  - an RSI period of 0 raises `ZeroDivisionError` on any non-empty price list, and a Bollinger period of 0 raises it always, because the average divides by the period;
  - a negative RSI period computes a value without complaint; a negative Bollinger period −n averages the slice `prices[n:]` but divides by −n, so the middle band is minus the slice's sum over n and the variance is negative; `math.sqrt` then raises `ValueError` unless the slice is empty or all its prices are 0 (five prices of 5.0 and a period of −3 give a middle band of −10/3 and raise);
  - a MACD fast or slow period of 0 computes without complaint, with smoothing factor 2 and `data[0]` as the seed; −1 raises `ZeroDivisionError` in `2 / (period + 1)`; other negative periods compute, or raise `IndexError` when the list is too short;
  - a MACD signal period of −1 raises `ZeroDivisionError`; 0 or any other negative value raises `IndexError`, because the signal line is taken from an empty list;
  - a negative `bb_std` raises nothing by itself, but puts the upper band below the lower one. The upper band can then be 0, where the band score divides by zero, or negative, where the band score has no bound. The band ordering and the 0.7 bound on the score hold only for `bb_std ≥ 0`.
- Markets with a non-positive price, whether the current price or any price in the history, are excluded by the precondition `ValidMarket`. The code does not reject them, and on them it behaves as follows:
  - a lower or upper band of exactly 0 that the band test reaches makes the band score divide by zero (`ZeroDivisionError`), and so does a current price of 0 when a buy is sized (your_strategy.py:461);
  - a negative upper band makes the band score negative and unbounded, so the score can pass any threshold. For example, take 26 history prices of −1, a current price of 1, the default configuration and positive cash. The RSI is 50, both bands are −1, the band score is min(1, (1 − (−1))/(−1)·2) = −4, and the score is +1.2. The code buys, although the default threshold is 0.9;
  - a negative current price makes the buy size negative, and the code holds with "Invalid position size" (your_strategy.py:461-464). The model keeps that branch, but under `ValidMarket` the size is always positive, so it is never taken.

  The 0.7 bound on the score, `Strategy.HighThresholdAlwaysHolds` and `Strategy.DefaultConfigNeverTrades` therefore hold only for markets with positive prices.
- Other inputs on which the code raises `ZeroDivisionError` are excluded by preconditions:
  - a long state with an entry price of exactly 0;
  - a negative stored peak meeting a portfolio value of exactly 0.
- Non-ASCII upper-case letters: `Flags.Lower` folds only ASCII letters, which is all the accepted words contain.
- `str(val)` of values other than strings and booleans: a non-boolean value is modelled by its text.
- A key present in the saved dictionary with the value `None`: for the keys with defaults (counters, peak, outcome history, score), the model treats this like an absent key, whereas the code stores `None`.
- A `last_signal` string other than "buy" and "sell" is represented by `Hold`, since the code only compares against those two.
- Persistence.GetState: the model returns an independent value. The code returns the instance's own `_win_loss_history` list when it has at most 50 entries (line 536). Later `on_trade` calls append to and pop from that same list, so such a snapshot keeps changing after it was taken. This sharing is not modelled.
- Persistence.SetState: the model copies the saved outcomes. The code adopts the caller's list itself (line 555), so later changes by either side show up in the other. This sharing is not modelled.
- `test_strategy.py` and `reports/backtest_runner.py`: they are callers and scripts, not part of the strategy.

=== FILE: common.dfy ===
/** Small shared vocabulary: Python's `None`, `sum`, `min`/`max`, negative-index
    slices, and the abstract numeric functions (square root, population
    standard deviation) the strategy borrows from its runtime. */
module Common {

  /** Python's `Optional[T]`: `None` or a value. */
  datatype Option<+T> = None | Some(value: T)

  /** A real function promising nothing but a non-negative result; stands for
      `math.sqrt`, whose exact value the model does not need. */
  type NonNegFn = f: real -> real | forall x: real :: 0.0 <= f(x)
    witness (x: real) => 0.0

  /** A function of a list promising only a non-negative result; stands for
      `statistics.pstdev`. */
  type NonNegSeqFn = f: seq<real> -> real | forall s: seq<real> :: 0.0 <= f(s)
    witness (s: seq<real>) => 0.0

  /** The two library routines the strategy calls, as one record. */
  datatype Numerics = Numerics(sqrt: NonNegFn, pstdev: NonNegSeqFn)

  /** Python's `sum` over a list of numbers, in exact arithmetic. */
  function Sum(s: seq<real>): real
    decreases |s|
  {
    if |s| == 0 then 0.0 else s[0] + Sum(s[1..])
  }

  /** Python's `sum` over a list of booleans: the number of `True` entries. */
  function CountTrue(s: seq<bool>): nat
    decreases |s|
  {
    if |s| == 0 then 0 else (if s[0] then 1 else 0) + CountTrue(s[1..])
  }

  function Min(a: real, b: real): real
  {
    if a <= b then a else b
  }

  function Max(a: real, b: real): real
  {
    if a >= b then a else b
  }

  function Abs(a: real): real
  {
    if a < 0.0 then -a else a
  }

  function MaxInt(a: int, b: int): int
  {
    if a >= b then a else b
  }

  /** Python's `s[-k:]` for `1 <= k <= len(s)`: the last `k` elements. */
  function Last<T>(s: seq<T>, k: nat): (r: seq<T>)
    requires k <= |s|
    ensures |r| == k
    ensures forall i :: 0 <= i < k ==> r[i] == s[|s| - k + i]
  {
    s[|s| - k..]
  }

  /** Every element of `s` lies in `[lo, hi]`. */
  predicate Bounded(s: seq<real>, lo: real, hi: real)
  {
    forall i :: 0 <= i < |s| ==> lo <= s[i] <= hi
  }

  /** Every element of `s` is strictly positive. */
  predicate AllPositive(s: seq<real>)
  {
    forall i :: 0 <= i < |s| ==> 0.0 < s[i]
  }

  /** A sum of terms drawn from `[lo, hi]` lies between `n * lo` and `n * hi`. */
  lemma {:induction false} SumBounds(s: seq<real>, lo: real, hi: real)
    requires Bounded(s, lo, hi)
    ensures (|s| as real) * lo <= Sum(s) <= (|s| as real) * hi
    decreases |s|
  {
    if |s| > 0 {
      assert Bounded(s[1..], lo, hi) by {
        forall i | 0 <= i < |s[1..]| ensures lo <= s[1..][i] <= hi {
          assert s[1..][i] == s[i + 1];
        }
      }
      SumBounds(s[1..], lo, hi);
      assert (|s| as real) * lo == (|s[1..]| as real) * lo + lo;
      assert (|s| as real) * hi == (|s[1..]| as real) * hi + hi;
    }
  }

  /** A sum of non-negative terms is non-negative. */
  lemma {:induction false} SumNonNeg(s: seq<real>)
    requires forall i :: 0 <= i < |s| ==> 0.0 <= s[i]
    ensures 0.0 <= Sum(s)
    decreases |s|
  {
    if |s| > 0 {
      assert forall i :: 0 <= i < |s[1..]| ==> 0.0 <= s[1..][i] by {
        forall i | 0 <= i < |s[1..]| ensures 0.0 <= s[1..][i] {
          assert s[1..][i] == s[i + 1];
        }
      }
      SumNonNeg(s[1..]);
    }
  }

  /** A non-empty sum of positive terms is positive. */
  lemma {:induction false} SumPositive(s: seq<real>)
    requires |s| > 0 && AllPositive(s)
    ensures 0.0 < Sum(s)
    decreases |s|
  {
    assert forall i :: 0 <= i < |s[1..]| ==> 0.0 <= s[1..][i] by {
      forall i | 0 <= i < |s[1..]| ensures 0.0 <= s[1..][i] {
        assert s[1..][i] == s[i + 1];
      }
    }
    SumNonNeg(s[1..]);
  }

  /** A sum of non-negative terms is zero exactly when every term is zero. */
  lemma {:induction false} SumZeroIff(s: seq<real>)
    requires forall i :: 0 <= i < |s| ==> 0.0 <= s[i]
    ensures Sum(s) == 0.0 <==> forall i :: 0 <= i < |s| ==> s[i] == 0.0
    decreases |s|
  {
    if |s| > 0 {
      assert forall i :: 0 <= i < |s[1..]| ==> 0.0 <= s[1..][i] by {
        forall i | 0 <= i < |s[1..]| ensures 0.0 <= s[1..][i] {
          assert s[1..][i] == s[i + 1];
        }
      }
      SumZeroIff(s[1..]);
      SumNonNeg(s[1..]);
      if Sum(s) == 0.0 {
        forall i | 0 <= i < |s| ensures s[i] == 0.0 {
          if i > 0 {
            assert s[i] == s[1..][i - 1];
          }
        }
      }
    }
  }
}

=== FILE: flags.dfy ===
/** `_as_bool`: reading a truthy configuration value as a boolean. */
module Flags {

  /** A configuration value as `_as_bool` sees it: `None`, a Python `bool`, or
      anything else, which the function only looks at through `str(val)`. */
  datatype ConfigValue = NoValue | BoolValue(b: bool) | OtherValue(text: string)

  /** Python's `str.isspace` for one character (the full set of characters
      Python treats as whitespace). */
  predicate IsSpace(c: char)
  {
    c == ' ' || ('\t' <= c <= '\r') || ('\U{1C}' <= c <= '\U{1F}')
    || c == '\U{85}' || c == '\U{A0}' || c == '\U{1680}'
    || ('\U{2000}' <= c <= '\U{200A}') || c == '\U{2028}' || c == '\U{2029}'
    || c == '\U{202F}' || c == '\U{205F}' || c == '\U{3000}'
  }

  /** `str.lower` restricted to ASCII letters. */
  function LowerChar(c: char): char
  {
    if 'A' <= c <= 'Z' then (c as int - 'A' as int + 'a' as int) as char else c
  }

  function Lower(s: string): (r: string)
    ensures |r| == |s|
    ensures forall i :: 0 <= i < |s| ==> r[i] == LowerChar(s[i])
  {
    seq(|s|, i requires 0 <= i < |s| => LowerChar(s[i]))
  }

  /** Drops leading whitespace. */
  function TrimStart(s: string): (r: string)
    ensures |r| <= |s| && r == s[|s| - |r|..]
    ensures |r| > 0 ==> !IsSpace(r[0])
    ensures forall i :: 0 <= i < |s| - |r| ==> IsSpace(s[i])
    decreases |s|
  {
    if |s| > 0 && IsSpace(s[0]) then TrimStart(s[1..]) else s
  }

  /** Drops trailing whitespace. */
  function TrimEnd(s: string): (r: string)
    ensures |r| <= |s| && r == s[..|r|]
    ensures |r| > 0 ==> !IsSpace(r[|r| - 1])
    ensures forall i :: |r| <= i < |s| ==> IsSpace(s[i])
    decreases |s|
  {
    if |s| > 0 && IsSpace(s[|s| - 1]) then TrimEnd(s[..|s| - 1]) else s
  }

  /** `str.strip()` with no argument. */
  function Strip(s: string): string
  {
    TrimEnd(TrimStart(s))
  }

  /** The text `_as_bool` compares: `str(val).strip().lower()`. */
  function Normalize(s: string): string
  {
    Lower(Strip(s))
  }

  /** The spellings `_as_bool` accepts as true. */
  predicate IsTruthyWord(s: string)
  {
    s == "1" || s == "true" || s == "yes" || s == "on"
  }

  /** `_as_bool(val, default)`: `None` gives the default, a `bool` is itself,
      anything else is true exactly when its normalised text is one of the
      four accepted spellings. */
  function AsBool(val: ConfigValue, default: bool): (r: bool)
    ensures val.NoValue? ==> r == default
    ensures val.BoolValue? ==> r == val.b
    ensures val.OtherValue? ==> (r <==> IsTruthyWord(Normalize(val.text)))
    ensures val.OtherValue? && r ==> 1 <= |Strip(val.text)| <= 4
  {
    match val
    case NoValue => default
    case BoolValue(b) => b
    case OtherValue(text) => IsTruthyWord(Normalize(text))
  }

  lemma LowerCharKeepsSpace(c: char)
    ensures IsSpace(LowerChar(c)) <==> IsSpace(c)
  {
  }

  /** Stripping a string whose ends are not whitespace changes nothing. */
  lemma StripOfTrimmed(s: string)
    requires |s| > 0 ==> !IsSpace(s[0]) && !IsSpace(s[|s| - 1])
    ensures Strip(s) == s
  {
    assert TrimStart(s) == s;
  }

  /** Normalising twice is normalising once, so `_as_bool` gives the same
      answer for a value and for its own normalised text. */
  lemma {:induction false} NormalizeIdempotent(s: string)
    ensures Normalize(Normalize(s)) == Normalize(s)
    ensures AsBool(OtherValue(Normalize(s)), false) == AsBool(OtherValue(s), false)
  {
    var t := Strip(s);
    var l := Lower(t);
    if |t| > 0 {
      LowerCharKeepsSpace(t[0]);
      LowerCharKeepsSpace(t[|t| - 1]);
    }
    StripOfTrimmed(l);
    assert Lower(l) == l;
  }

  predicate AllSpace(s: string)
  {
    forall i :: 0 <= i < |s| ==> IsSpace(s[i])
  }

  /** Whitespace alone trims to nothing. */
  lemma TrimStartOfSpace(s: string)
    requires AllSpace(s)
    ensures TrimStart(s) == []
  {
  }

  /** Leading whitespace is dropped up to the first other character,
      wherever the two halves of the text meet. */
  lemma {:induction false} TrimStartAppend(x: string, y: string)
    ensures TrimStart(x + y) == if |TrimStart(x)| > 0 then TrimStart(x) + y else TrimStart(y)
    decreases |x|
  {
    if |x| == 0 {
      assert x + y == y;
    } else {
      assert (x + y)[0] == x[0];
      assert (x + y)[1..] == x[1..] + y;
      if IsSpace(x[0]) {
        TrimStartAppend(x[1..], y);
      }
    }
  }

  /** Trailing whitespace appended to a text is trimmed away again. */
  lemma {:induction false} TrimEndOfPadded(x: string, post: string)
    requires AllSpace(post)
    ensures TrimEnd(x + post) == TrimEnd(x)
    decreases |post|
  {
    if |post| == 0 {
      assert x + post == x;
    } else {
      var rest := post[..|post| - 1];
      assert (x + post)[..|x + post| - 1] == x + rest;
      TrimEndOfPadded(x, rest);
    }
  }

  /** Leading whitespace added in front is trimmed away again. */
  lemma TrimStartOfPadded(pre: string, u: string)
    requires AllSpace(pre)
    ensures TrimStart(pre + u) == TrimStart(u)
  {
    TrimStartOfSpace(pre);
    TrimStartAppend(pre, u);
  }

  /** Trimming the front of a text with whitespace appended: the trimmed
      text followed by that whitespace, or nothing when the text was blank. */
  lemma TrimStartOfSuffixed(t: string, post: string)
    requires AllSpace(post)
    ensures TrimStart(t + post) == if |TrimStart(t)| > 0 then TrimStart(t) + post else []
  {
    TrimStartAppend(t, post);
    TrimStartOfSpace(post);
  }

  /** `str.strip()` ignores whitespace added on either side. */
  lemma StripOfPadded(pre: string, t: string, post: string)
    requires AllSpace(pre) && AllSpace(post)
    ensures Strip(pre + t + post) == Strip(t)
  {
    assert pre + t + post == pre + (t + post);
    TrimStartOfPadded(pre, t + post);
    TrimStartOfSuffixed(t, post);
    if |TrimStart(t)| > 0 {
      TrimEndOfPadded(TrimStart(t), post);
    }
  }

  /** Lower-casing and trimming commute: `lower` never turns whitespace into
      something else or back. */
  lemma {:induction false} TrimStartOfLower(x: string)
    ensures Lower(TrimStart(x)) == TrimStart(Lower(x))
    decreases |x|
  {
    if |x| > 0 {
      LowerCharKeepsSpace(x[0]);
      assert Lower(x)[1..] == Lower(x[1..]);
      if IsSpace(x[0]) {
        TrimStartOfLower(x[1..]);
      }
    }
  }

  lemma {:induction false} TrimEndOfLower(x: string)
    ensures Lower(TrimEnd(x)) == TrimEnd(Lower(x))
    decreases |x|
  {
    if |x| > 0 {
      LowerCharKeepsSpace(x[|x| - 1]);
      assert Lower(x)[..|x| - 1] == Lower(x[..|x| - 1]);
      if IsSpace(x[|x| - 1]) {
        TrimEndOfLower(x[..|x| - 1]);
      }
    }
  }

  /** Normalising is stripping the lower-cased text. */
  lemma NormalizeIsStripOfLower(x: string)
    ensures Normalize(x) == Strip(Lower(x))
  {
    TrimStartOfLower(x);
    TrimEndOfLower(TrimStart(x));
  }

  /** Surrounding whitespace and the case of ASCII letters do not matter:
      a value padded with whitespace on either side, and spelled in any
      mixture of cases, reads as the plain value does (so `" TRUE\n"` is
      true, like `"true"`). */
  lemma PaddingAndCaseIgnored(pre: string, s: string, post: string, t: string, default: bool)
    requires AllSpace(pre) && AllSpace(post)
    requires |t| == |s| && forall i :: 0 <= i < |s| ==> LowerChar(t[i]) == LowerChar(s[i])
    ensures Normalize(pre + t + post) == Normalize(s)
    ensures AsBool(OtherValue(pre + t + post), default) == AsBool(OtherValue(s), default)
  {
    StripOfPadded(pre, Lower(t), post);
    assert Lower(pre + t + post) == Lower(pre) + Lower(t) + Lower(post);
    forall i | 0 <= i < |pre| ensures IsSpace(Lower(pre)[i]) {
      LowerCharKeepsSpace(pre[i]);
    }
    forall i | 0 <= i < |post| ensures IsSpace(Lower(post)[i]) {
      LowerCharKeepsSpace(post[i]);
    }
    StripOfPadded(Lower(pre), Lower(t), Lower(post));
    NormalizeIsStripOfLower(pre + t + post);
    NormalizeIsStripOfLower(s);
    assert Lower(t) == Lower(s);
  }

  /** Text without whitespace or upper-case letters is already normalised. */
  lemma NormalizeOfPlain(t: string)
    requires forall i :: 0 <= i < |t| ==> !IsSpace(t[i]) && !('A' <= t[i] <= 'Z')
    ensures Normalize(t) == t
  {
    StripOfTrimmed(t);
    assert Lower(t) == t;
  }

  /** A decimal spelling of a number, such as `"1.0"`, is read through its
      text and is not true, even when the number is one. */
  lemma DecimalOneIsFalse(t: string)
    requires |t| >= 2 && t[0] == '1' && t[1] == '.'
    requires forall i :: 0 <= i < |t| ==> !IsSpace(t[i]) && !('A' <= t[i] <= 'Z')
    ensures !AsBool(OtherValue(t), true)
  {
    NormalizeOfPlain(t);
    assert t[0] != "true"[0] && t[0] != "yes"[0] && t[0] != "on"[0];
  }

}

=== FILE: indicators.dfy ===
/** The technical indicators of the high-conviction strategy: simple moving
    average, RSI, Bollinger bands, EMA and MACD, and return volatility. Each is
    a pure function of a price list that gives `None` when the list is too
    short. */
module Indicators {
  import opened Common

  // ------------------------------------------------------------------ SMA

  /** `_calculate_sma`: mean of the last `window` prices. */
  function Sma(prices: seq<real>, window: int): (r: Option<real>)
    requires window >= 1
    ensures r.None? <==> |prices| < window
    ensures r.Some? ==> window as real * r.value == Sum(Last(prices, window))
  {
    if |prices| < window then None
    else
      var mean := Sum(Last(prices, window)) / window as real;
      assert mean * window as real == Sum(Last(prices, window));
      Some(mean)
  }

  /** The moving average lies within any bounds that hold for the prices it
      averages; in particular it is positive for positive prices and equals
      `c` for a window of constant price `c`. */
  lemma SmaBounded(prices: seq<real>, window: int, lo: real, hi: real)
    requires window >= 1 && |prices| >= window
    requires Bounded(Last(prices, window), lo, hi)
    ensures lo <= Sma(prices, window).value <= hi
  {
    var w := Last(prices, window);
    SumBounds(w, lo, hi);
    var n := window as real;
    DivideBounds(Sum(w), n, lo, hi);
  }

  /** Dividing `n * lo <= a <= n * hi` by a positive `n`. */
  lemma DivideBounds(a: real, n: real, lo: real, hi: real)
    requires n > 0.0 && n * lo <= a <= n * hi
    ensures lo <= a / n <= hi
  {
    var q := a / n;
    assert q * n == a;
    assert (q - lo) * n == a - n * lo;
    assert (hi - q) * n == n * hi - a;
  }

  /** A window of positive prices has a positive average. */
  lemma SmaPositive(prices: seq<real>, window: int)
    requires window >= 1 && |prices| >= window
    requires AllPositive(Last(prices, window))
    ensures Sma(prices, window).value > 0.0
  {
    SumPositive(Last(prices, window));
  }

  // ------------------------------------------------------------------ RSI

  /** Consecutive price changes `prices[i] - prices[i-1]`. */
  function Deltas(prices: seq<real>): (d: seq<real>)
    requires |prices| >= 1
    ensures |d| == |prices| - 1
    ensures forall i :: 0 <= i < |d| ==> d[i] == prices[i + 1] - prices[i]
  {
    seq(|prices| - 1, i requires 0 <= i < |prices| - 1 => prices[i + 1] - prices[i])
  }

  /** The upward moves: a change if positive, else zero. */
  function Gains(d: seq<real>): (g: seq<real>)
    ensures |g| == |d|
    ensures forall i :: 0 <= i < |d| ==> g[i] == (if d[i] > 0.0 then d[i] else 0.0)
  {
    seq(|d|, i requires 0 <= i < |d| => if d[i] > 0.0 then d[i] else 0.0)
  }

  /** The downward moves, as positive amounts. */
  function Losses(d: seq<real>): (l: seq<real>)
    ensures |l| == |d|
    ensures forall i :: 0 <= i < |d| ==> l[i] == (if d[i] < 0.0 then -d[i] else 0.0)
  {
    seq(|d|, i requires 0 <= i < |d| => if d[i] < 0.0 then -d[i] else 0.0)
  }

  /** Total gain over the last `period` changes. */
  function TotalGain(prices: seq<real>, period: int): (g: real)
    requires period >= 1 && |prices| >= period + 1
    ensures g == Sum(Gains(Last(Deltas(prices), period)))
    ensures g >= 0.0
  {
    var gs := Gains(Last(Deltas(prices), period));
    SumNonNeg(gs);
    Sum(gs)
  }

  /** Total loss over the last `period` changes. */
  function TotalLoss(prices: seq<real>, period: int): (l: real)
    requires period >= 1 && |prices| >= period + 1
    ensures l == Sum(Losses(Last(Deltas(prices), period)))
    ensures l >= 0.0
  {
    var ls := Losses(Last(Deltas(prices), period));
    SumNonNeg(ls);
    Sum(ls)
  }

  /** Every change is its gain minus its loss, so the summed gains minus
      the summed losses is the summed change. */
  lemma {:induction false} GainsMinusLosses(d: seq<real>)
    ensures Sum(Gains(d)) - Sum(Losses(d)) == Sum(d)
    decreases |d|
  {
    if |d| > 0 {
      assert Gains(d)[1..] == Gains(d[1..]);
      assert Losses(d)[1..] == Losses(d[1..]);
      GainsMinusLosses(d[1..]);
    }
  }

  /** The changes of a list telescope to its last price minus its first. */
  lemma {:induction false} DeltasTelescope(w: seq<real>)
    requires |w| >= 1
    ensures Sum(Deltas(w)) == w[|w| - 1] - w[0]
    decreases |w|
  {
    if |w| > 1 {
      assert Deltas(w)[1..] == Deltas(w[1..]);
      DeltasTelescope(w[1..]);
    }
  }

  /** The last `period` changes are the changes of the last `period + 1`
      prices. */
  lemma RecentDeltas(prices: seq<real>, period: int)
    requires period >= 1 && |prices| >= period + 1
    ensures Last(Deltas(prices), period) == Deltas(Last(prices, period + 1))
  {
  }

  /** The RSI totals account for the whole move of the window: gains minus
      losses is the last price minus the price `period` changes back. */
  lemma RsiTelescope(prices: seq<real>, period: int)
    requires period >= 1 && |prices| >= period + 1
    ensures TotalGain(prices, period) - TotalLoss(prices, period)
            == prices[|prices| - 1] - prices[|prices| - 1 - period]
  {
    RecentDeltas(prices, period);
    GainsMinusLosses(Last(Deltas(prices), period));
    DeltasTelescope(Last(prices, period + 1));
  }

  /** No step of the last `period` changes goes down. */
  predicate NeverFalls(prices: seq<real>, period: int)
    requires period >= 1 && |prices| >= period + 1
  {
    forall i :: |prices| - 1 - period <= i < |prices| - 1 ==> prices[i] <= prices[i + 1]
  }

  /** No step of the last `period` changes goes up. */
  predicate NeverRises(prices: seq<real>, period: int)
    requires period >= 1 && |prices| >= period + 1
  {
    forall i :: |prices| - 1 - period <= i < |prices| - 1 ==> prices[i] >= prices[i + 1]
  }

  /** The summed loss is zero exactly when the window never falls. */
  lemma NoLossIffNeverFalls(prices: seq<real>, period: int)
    requires period >= 1 && |prices| >= period + 1
    ensures TotalLoss(prices, period) == 0.0 <==> NeverFalls(prices, period)
  {
    var d := Last(Deltas(prices), period);
    var ls := Losses(d);
    var base := |prices| - 1 - period;
    SumZeroIff(ls);
    forall j | 0 <= j < period
      ensures ls[j] == 0.0 <==> prices[base + j] <= prices[base + j + 1]
    {
      assert d[j] == prices[base + j + 1] - prices[base + j];
    }
    if NeverFalls(prices, period) {
      forall j | 0 <= j < |ls| ensures ls[j] == 0.0 {
        assert prices[base + j] <= prices[base + j + 1];
      }
    }
    if TotalLoss(prices, period) == 0.0 {
      forall i | base <= i < |prices| - 1 ensures prices[i] <= prices[i + 1] {
        assert ls[i - base] == 0.0;
      }
    }
  }

  /** The summed gain is zero exactly when the window never rises. */
  lemma NoGainIffNeverRises(prices: seq<real>, period: int)
    requires period >= 1 && |prices| >= period + 1
    ensures TotalGain(prices, period) == 0.0 <==> NeverRises(prices, period)
  {
    var d := Last(Deltas(prices), period);
    var gs := Gains(d);
    var base := |prices| - 1 - period;
    SumZeroIff(gs);
    forall j | 0 <= j < period
      ensures gs[j] == 0.0 <==> prices[base + j] >= prices[base + j + 1]
    {
      assert d[j] == prices[base + j + 1] - prices[base + j];
    }
    if NeverRises(prices, period) {
      forall j | 0 <= j < |gs| ensures gs[j] == 0.0 {
        assert prices[base + j] >= prices[base + j + 1];
      }
    }
    if TotalGain(prices, period) == 0.0 {
      forall i | base <= i < |prices| - 1 ensures prices[i] >= prices[i + 1] {
        assert gs[i - base] == 0.0;
      }
    }
  }

  /** `_calculate_rsi`: simple-average RSI over the last `period` changes.
      No losses gives exactly 100 if anything rose and 50 if nothing moved;
      otherwise the value is the share of movement that was upward. */
  function Rsi(prices: seq<real>, period: int): (r: Option<real>)
    requires period >= 1
    ensures r.None? <==> |prices| < period + 1
    ensures r.Some? ==> 0.0 <= r.value <= 100.0
    ensures r.Some? && TotalLoss(prices, period) == 0.0 ==>
              r.value == (if TotalGain(prices, period) > 0.0 then 100.0 else 50.0)
    ensures r.Some? && TotalLoss(prices, period) > 0.0 ==>
              r.value == 100.0 * TotalGain(prices, period)
                         / (TotalGain(prices, period) + TotalLoss(prices, period))
  {
    if |prices| < period + 1 then None
    else Some(RsiValue(TotalGain(prices, period), TotalLoss(prices, period), period as real))
  }

  /** RSI from the summed gains `g` and losses `l` of `n` changes: the
      averages `g/n` and `l/n`, then `100 - 100/(1 + rs)` unless the average
      loss is 0. */
  function RsiValue(g: real, l: real, n: real): (v: real)
    requires g >= 0.0 && l >= 0.0 && n > 0.0
    ensures 0.0 <= v <= 100.0
    ensures l == 0.0 ==> v == (if g > 0.0 then 100.0 else 50.0)
    ensures l > 0.0 ==> v == 100.0 * g / (g + l) && v < 100.0
    ensures l > 0.0 ==> (v == 0.0 <==> g == 0.0)
  {
    var avgGain := g / n;
    var avgLoss := l / n;
    assert avgLoss * n == l && avgGain * n == g;
    if avgLoss == 0.0 then
      if avgGain > 0.0 then 100.0 else 50.0
    else
      var rs := avgGain / avgLoss;
      RsiShare(g, l, n);
      assert g > 0.0 ==> 100.0 * g / (g + l) > 0.0;
      100.0 - 100.0 / (1.0 + rs)
  }

  /** The algebra behind RSI: with averages `g/n`, `l/n` and `l > 0`, the
      formula `100 - 100/(1 + rs)` is `100 g / (g + l)`, which is in `[0, 100)`. */
  lemma RsiShare(g: real, l: real, n: real)
    requires g >= 0.0 && l > 0.0 && n > 0.0
    ensures (l / n) != 0.0
    ensures 100.0 - 100.0 / (1.0 + (g / n) / (l / n)) == 100.0 * g / (g + l)
    ensures 0.0 <= 100.0 * g / (g + l) < 100.0
  {
    var rs := (g / n) / (l / n);
    assert rs == g / l by {
      assert (g / n) == (g / l) * (l / n);
    }
    assert rs * l == g;
    var d := 1.0 + rs;
    assert d * l == g + l;
    assert d > 0.0;
    var share := 100.0 / d;
    assert share * d == 100.0;
    assert share * (g + l) == 100.0 * l by {
      assert share * (g + l) == share * (d * l);
      assert share * (d * l) == (share * d) * l;
    }
    assert share == 100.0 * l / (g + l);
    var up := 100.0 * g / (g + l);
    assert up * (g + l) == 100.0 * g;
    assert (share + up) * (g + l) == 100.0 * (g + l);
    assert share + up == 100.0;
    assert up * (g + l) < 100.0 * (g + l);
  }

  /** RSI is exactly 100 when, and only when, the window held gains and no
      losses; it is 0 exactly when it held losses and no gains. */
  lemma RsiExtremes(prices: seq<real>, period: int)
    requires period >= 1 && |prices| >= period + 1
    ensures Rsi(prices, period).value == 100.0 <==>
              TotalLoss(prices, period) == 0.0 && TotalGain(prices, period) > 0.0
    ensures Rsi(prices, period).value == 0.0 <==>
              TotalGain(prices, period) == 0.0 && TotalLoss(prices, period) > 0.0
  {
  }

  /** The RSI reads the direction of the prices: it is 100 exactly when
      the last `period` changes never fall and end higher than they began,
      and 0 exactly when they never rise and end lower. */
  lemma RsiDirection(prices: seq<real>, period: int)
    requires period >= 1 && |prices| >= period + 1
    ensures Rsi(prices, period).value == 100.0 <==>
              NeverFalls(prices, period) && prices[|prices| - 1 - period] < prices[|prices| - 1]
    ensures Rsi(prices, period).value == 0.0 <==>
              NeverRises(prices, period) && prices[|prices| - 1 - period] > prices[|prices| - 1]
  {
    RsiExtremes(prices, period);
    RsiTelescope(prices, period);
    NoLossIffNeverFalls(prices, period);
    NoGainIffNeverRises(prices, period);
  }

  /** A flat price history has RSI 50. */
  lemma {:induction false} RsiOfFlatPrices(prices: seq<real>, period: int)
    requires period >= 1 && |prices| >= period + 1
    requires forall i :: 0 <= i < |prices| ==> prices[i] == prices[0]
    ensures Rsi(prices, period) == Some(50.0)
  {
    var recent := Last(Deltas(prices), period);
    assert forall i :: 0 <= i < |recent| ==> recent[i] == 0.0;
    SumZeroIff(Gains(recent));
    SumZeroIff(Losses(recent));
  }

  // ------------------------------------------------------------- Bollinger

  /** The three Bollinger lines. */
  datatype Bands = Bands(middle: real, upper: real, lower: real)

  /** A product, carrying the sign fact the variance proofs need. */
  function Mul(a: real, b: real): (r: real)
    ensures 0.0 < a && 0.0 < b ==> 0.0 < r
  {
    a * b
  }

  /** `x ** 2`, as the square of `|x|`: never negative, and zero only at
      zero. */
  function Square(x: real): (r: real)
    ensures 0.0 <= r
    ensures r == 0.0 <==> x == 0.0
  {
    if x == 0.0 then 0.0 else Mul(Abs(x), Abs(x))
  }

  /** Squared deviations of `w` from `mean`. */
  function SquaredDeviations(w: seq<real>, mean: real): (s: seq<real>)
    ensures |s| == |w|
    ensures forall i :: 0 <= i < |w| ==> s[i] == Square(w[i] - mean)
  {
    seq(|w|, i requires 0 <= i < |w| => Square(w[i] - mean))
  }

  /** Population variance of the last `period` prices around `mean`: the
      mean of their squared deviations. */
  function Variance(prices: seq<real>, period: int, mean: real): (v: real)
    requires period >= 1 && |prices| >= period
    ensures period as real * v == Sum(SquaredDeviations(Last(prices, period), mean))
    ensures v >= 0.0
  {
    var sq := SquaredDeviations(Last(prices, period), mean);
    SumNonNeg(sq);
    var v := Sum(sq) / period as real;
    assert v * period as real == Sum(sq);
    v
  }

  /** Squared deviations sum to zero exactly when every value is the mean. */
  lemma DeviationsZeroIff(w: seq<real>, mean: real)
    ensures Sum(SquaredDeviations(w, mean)) == 0.0 <==>
              forall i :: 0 <= i < |w| ==> w[i] == mean
  {
    SumZeroIff(SquaredDeviations(w, mean));
  }

  /** The variance is zero exactly when every price of the window equals
      the mean. */
  lemma VarianceZeroIff(prices: seq<real>, period: int, mean: real)
    requires period >= 1 && |prices| >= period
    ensures Variance(prices, period, mean) == 0.0 <==>
              forall i :: |prices| - period <= i < |prices| ==> prices[i] == mean
  {
    var w := Last(prices, period);
    DeviationsZeroIff(w, mean);
    var base := |prices| - period;
    assert Variance(prices, period, mean) == 0.0 <==> Sum(SquaredDeviations(w, mean)) == 0.0;
    if forall j :: 0 <= j < |w| ==> w[j] == mean {
      forall i | base <= i < |prices| ensures prices[i] == mean {
        assert prices[i] == w[i - base];
      }
    }
  }

  /** `_calculate_bollinger_bands`: the moving average with bands `stdMult`
      standard deviations above and below it. */
  function BollingerBands(prices: seq<real>, period: int, stdMult: real, sqrt: NonNegFn)
    : (r: Option<Bands>)
    requires period >= 1
    ensures r.None? <==> |prices| < period
    ensures r.Some? ==> r.value.middle == Sma(prices, period).value
    ensures r.Some? ==> r.value.upper - r.value.middle == r.value.middle - r.value.lower
    ensures r.Some? ==>
              r.value.upper - r.value.middle
              == stdMult * sqrt(Variance(prices, period, r.value.middle))
    ensures r.Some? && stdMult >= 0.0 ==> r.value.lower <= r.value.middle <= r.value.upper
  {
    if |prices| < period then None
    else
      var middleBand := Sma(prices, period);
      if middleBand.None? then None
      else
        var m := middleBand.value;
        var deviation := sqrt(Variance(prices, period, m));
        Some(Bands(m, m + stdMult * deviation, m - stdMult * deviation))
  }

  // ------------------------------------------------------------------ EMA

  /** The EMA recurrence `ema = price * k + ema * (1 - k)` folded over `xs`. */
  function EmaFold(ema: real, xs: seq<real>, k: real): real
    decreases |xs|
  {
    if |xs| == 0 then ema else EmaFold(xs[0] * k + ema * (1.0 - k), xs[1..], k)
  }

  /** The recurrence read from the other end: folding one more value `x`
      is one more step `x * k + ema * (1 - k)` on the result so far. */
  lemma {:induction false} EmaFoldAppend(ema: real, xs: seq<real>, x: real, k: real)
    ensures EmaFold(ema, xs + [x], k) == x * k + EmaFold(ema, xs, k) * (1.0 - k)
    decreases |xs|
  {
    if |xs| > 0 {
      var ys := xs + [x];
      var next := xs[0] * k + ema * (1.0 - k);
      assert ys[0] == xs[0];
      assert ys[1..] == xs[1..] + [x];
      assert EmaFold(ema, ys, k) == EmaFold(ys[0] * k + ema * (1.0 - k), ys[1..], k);
      assert EmaFold(ema, xs, k) == EmaFold(next, xs[1..], k);
      assert ys[0] * k + ema * (1.0 - k) == next;
      assert EmaFold(ema, ys, k) == EmaFold(next, xs[1..] + [x], k);
      EmaFoldAppend(next, xs[1..], x, k);
    } else {
      assert xs + [x] == [x];
    }
  }

  /** The smoothing factor `2 / (period + 1)`. */
  function Smoothing(period: int): (k: real)
    requires period >= 1
    ensures 0.0 < k <= 1.0
    ensures k == 1.0 <==> period == 1
  {
    2.0 / (period + 1) as real
  }

  /** The prices `_calculate_ema` folds after its seed `data[-period]`:
      `data[-period+1:]`, which for `period == 1` is Python's `data[0:]`, the
      whole list. */
  function EmaTail(data: seq<real>, period: int): (t: seq<real>)
    requires 1 <= period <= |data|
  {
    if period == 1 then data else data[|data| - period + 1..]
  }

  /** The inner `_calculate_ema`: seeded with `data[-period]`, then the
      recurrence over the rest. It stays within the range of the last
      `period` values. */
  function Ema(data: seq<real>, period: int): (r: Option<real>)
    requires period >= 1
    ensures r.None? <==> |data| < period
  {
    if |data| < period then None
    else Some(EmaFold(data[|data| - period], EmaTail(data, period), Smoothing(period)))
  }

  /** For a period above 1 the EMA ends on one step of the recurrence: the
      last value weighted by `k`, plus `1 - k` times the EMA of the same
      seed over the values between the seed and the last one. */
  lemma EmaLastStep(data: seq<real>, period: int)
    requires 2 <= period <= |data|
    ensures var k := Smoothing(period);
            var n := |data|;
            Ema(data, period).value
            == data[n - 1] * k + EmaFold(data[n - period], data[n - period + 1..n - 1], k) * (1.0 - k)
  {
    var n := |data|;
    var tail := data[n - period + 1..];
    assert tail == data[n - period + 1..n - 1] + [data[n - 1]];
    EmaFoldAppend(data[n - period], data[n - period + 1..n - 1], data[n - 1], Smoothing(period));
  }

  /** The product of two non-negative numbers is non-negative. */
  lemma MulNonNeg(a: real, b: real)
    requires 0.0 <= a && 0.0 <= b
    ensures 0.0 <= a * b
  {
  }

  /** One EMA step is a convex combination, so it keeps a range. */
  lemma ConvexStep(x: real, e: real, k: real, lo: real, hi: real)
    requires lo <= x <= hi && lo <= e <= hi && 0.0 <= k <= 1.0
    ensures lo <= x * k + e * (1.0 - k) <= hi
  {
    MulNonNeg(x - lo, k);
    MulNonNeg(e - lo, 1.0 - k);
    MulNonNeg(hi - x, k);
    MulNonNeg(hi - e, 1.0 - k);
    assert x * k + e * (1.0 - k) - lo == (x - lo) * k + (e - lo) * (1.0 - k);
    assert hi - (x * k + e * (1.0 - k)) == (hi - x) * k + (hi - e) * (1.0 - k);
  }

  /** Folding the recurrence keeps any range that the seed and the folded
      values share. */
  lemma {:induction false} EmaFoldBounded(ema: real, xs: seq<real>, k: real, lo: real, hi: real)
    requires lo <= ema <= hi && Bounded(xs, lo, hi) && 0.0 <= k <= 1.0
    ensures lo <= EmaFold(ema, xs, k) <= hi
    decreases |xs|
  {
    if |xs| > 0 {
      ConvexStep(xs[0], ema, k, lo, hi);
      assert Bounded(xs[1..], lo, hi) by {
        forall i | 0 <= i < |xs[1..]| ensures lo <= xs[1..][i] <= hi {
          assert xs[1..][i] == xs[i + 1];
        }
      }
      EmaFoldBounded(xs[0] * k + ema * (1.0 - k), xs[1..], k, lo, hi);
    }
  }

  /** With `k == 1` the recurrence forgets the past: the result is the last
      folded value. */
  lemma {:induction false} EmaFoldUnitSmoothing(ema: real, xs: seq<real>)
    requires |xs| > 0
    ensures EmaFold(ema, xs, 1.0) == xs[|xs| - 1]
    decreases |xs|
  {
    if |xs| > 1 {
      EmaFoldUnitSmoothing(xs[0], xs[1..]);
    }
  }

  /** The EMA lies within any bounds of the last `period` values, even for
      `period == 1`, where the fold runs over the whole list. */
  lemma EmaBounded(data: seq<real>, period: int, lo: real, hi: real)
    requires 1 <= period <= |data|
    requires Bounded(Last(data, period), lo, hi)
    ensures lo <= Ema(data, period).value <= hi
  {
    var w := Last(data, period);
    if period == 1 {
      EmaFoldUnitSmoothing(data[|data| - 1], data);
    } else {
      var tail := data[|data| - period + 1..];
      assert Bounded(tail, lo, hi) by {
        forall i | 0 <= i < |tail| ensures lo <= tail[i] <= hi {
          assert tail[i] == w[i + 1];
        }
      }
      assert data[|data| - period] == w[0];
      EmaFoldBounded(data[|data| - period], tail, Smoothing(period), lo, hi);
    }
  }

  /** With period 1 the smoothing factor is 1 and the seed is the last price,
      so folding over the whole list still ends on the last price. */
  lemma EmaOfPeriodOne(data: seq<real>)
    requires |data| >= 1
    ensures Ema(data, 1) == Some(data[|data| - 1])
  {
    EmaFoldUnitSmoothing(data[|data| - 1], data);
  }

  // ----------------------------------------------------------------- MACD

  /** MACD line, signal line and histogram. */
  datatype MacdLines = MacdLines(macd: real, signal: real, histogram: real)

  /** `[v for _ in range(n)]`. */
  function Repeat(v: real, n: nat): (s: seq<real>)
    ensures |s| == n && forall i :: 0 <= i < n ==> s[i] == v
  {
    seq(n, _ => v)
  }

  /** `_calculate_macd`. The signal line is the EMA of `signalPeriod` copies
      of the current MACD value, so it equals the MACD line and the histogram
      is always zero. */
  function Macd(prices: seq<real>, fast: int, slow: int, signalPeriod: int): (r: Option<MacdLines>)
    requires fast >= 1 && slow >= 1 && signalPeriod >= 1
    ensures r.None? <==> |prices| < slow + signalPeriod || |prices| < fast
    ensures r.Some? ==> r.value.signal == r.value.macd && r.value.histogram == 0.0
    ensures r.Some? ==> r.value.macd == Ema(prices, fast).value - Ema(prices, slow).value
  {
    if |prices| < slow + signalPeriod then None
    else
      var fastEma := Ema(prices, fast);
      var slowEma := Ema(prices, slow);
      if fastEma.None? || slowEma.None? then None
      else
        var macdLine := fastEma.value - slowEma.value;
        var history := Repeat(fastEma.value - slowEma.value, signalPeriod);
        var signalLine := Ema(history, signalPeriod);
        if signalLine.None? then None
        else
          EmaBounded(history, signalPeriod, macdLine, macdLine);
          Some(MacdLines(macdLine, signalLine.value, macdLine - signalLine.value))
  }

  // ----------------------------------------------------------- Volatility

  /** The simple returns `(w[i] - w[i-1]) / w[i-1]` over `i = 1 .. len-1`,
      skipping every step whose base price is not positive. */
  function SimpleReturns(w: seq<real>): (r: seq<real>)
    ensures |w| >= 1 ==> |r| <= |w| - 1
    ensures |w| <= 1 ==> r == []
    decreases |w|
  {
    if |w| < 2 then []
    else
      var prev := w[|w| - 2];
      SimpleReturns(w[..|w| - 1])
        + (if prev > 0.0 then [(w[|w| - 1] - prev) / prev] else [])
  }

  /** When every price is positive, no step is skipped. */
  lemma {:induction false} SimpleReturnsOfPositive(w: seq<real>)
    requires |w| >= 1 && AllPositive(w)
    ensures |SimpleReturns(w)| == |w| - 1
    ensures forall i :: 0 <= i < |w| - 1 ==> SimpleReturns(w)[i] == (w[i + 1] - w[i]) / w[i]
    decreases |w|
  {
    if |w| >= 2 {
      var front := w[..|w| - 1];
      assert AllPositive(front);
      SimpleReturnsOfPositive(front);
      var r := SimpleReturns(w);
      assert r == SimpleReturns(front) + [(w[|w| - 1] - w[|w| - 2]) / w[|w| - 2]];
      forall i | 0 <= i < |w| - 1 ensures r[i] == (w[i + 1] - w[i]) / w[i] {
        if i < |w| - 2 {
          assert r[i] == SimpleReturns(front)[i];
          assert front[i] == w[i] && front[i + 1] == w[i + 1];
        }
      }
    }
  }

  /** `_calculate_volatility`: population standard deviation of the returns
      in the last `window` prices, or 0 when there are fewer than two. */
  function Volatility(prices: seq<real>, window: int, pstdev: NonNegSeqFn): (r: Option<real>)
    requires window >= 1
    ensures r.None? <==> |prices| < window
    ensures r.Some? ==> r.value >= 0.0
    ensures r.Some? && |SimpleReturns(Last(prices, window))| < 2 ==> r.value == 0.0
    ensures r.Some? && window <= 2 ==> r.value == 0.0
  {
    if |prices| < window then None
    else
      var rets := SimpleReturns(Last(prices, window));
      if |rets| < 2 then Some(0.0) else Some(pstdev(rets))
  }
}

=== FILE: persistence.dfy ===
/** Saving and restoring the strategy state: `get_state` and `set_state`.
    The saved dictionary is a record of optional values; `None` stands for a
    key that is absent or holds `None`. Timestamps are whole seconds, which
    is the precision the saved ISO text keeps. */
module Persistence {
  import opened Common
  import opened Types

  /** How many trade outcomes a snapshot keeps. */
  const SavedOutcomes: nat := 50

  /** The dictionary `get_state` returns and `set_state` reads. */
  datatype SavedState = SavedState(
    lastSignal: Option<Action>,
    entryPrice: Option<real>,
    entryTime: Option<int>,
    trailingHigh: Option<real>,
    trailingLow: Option<real>,
    consecutiveLosses: Option<int>,
    peakPortfolioValue: Option<real>,
    tradeCount: Option<int>,
    lastTradeTime: Option<int>,
    winLossHistory: Option<seq<bool>>,
    recentPerformanceScore: Option<real>)

  /** The newest 50 outcomes, or all of them when there are fewer. */
  function TrimOutcomes(history: seq<bool>): (r: seq<bool>)
    ensures |r| == if |history| > SavedOutcomes then SavedOutcomes else |history|
    ensures r == history[|history| - |r|..]
  {
    if |history| > SavedOutcomes then Last(history, SavedOutcomes) else history
  }

  /** `get_state()`. Every key is written; the price history is not saved,
      and only the newest 50 trade outcomes are. */
  function GetState(st: StrategyState): (s: SavedState)
    ensures s.consecutiveLosses.Some? && s.peakPortfolioValue.Some? && s.tradeCount.Some?
            && s.winLossHistory.Some? && s.recentPerformanceScore.Some?
    ensures |s.winLossHistory.value| <= SavedOutcomes && |s.winLossHistory.value| <= |st.winLossHistory|
    ensures s.winLossHistory.value
            == st.winLossHistory[|st.winLossHistory| - |s.winLossHistory.value|..]
    ensures |st.winLossHistory| <= SavedOutcomes ==> s.winLossHistory.value == st.winLossHistory
    ensures s.entryTime.Some? <==> st.entryTime.Some?
    ensures s.lastTradeTime.Some? <==> st.lastTradeTime.Some?
  {
    SavedState(
      lastSignal := st.lastSignal,
      entryPrice := st.entryPrice,
      entryTime := st.entryTime,
      trailingHigh := st.trailingHigh,
      trailingLow := st.trailingLow,
      consecutiveLosses := Some(st.consecutiveLosses),
      peakPortfolioValue := Some(st.peakPortfolioValue),
      tradeCount := Some(st.tradeCount),
      lastTradeTime := st.lastTradeTime,
      winLossHistory := Some(TrimOutcomes(st.winLossHistory)),
      recentPerformanceScore := Some(st.recentPerformanceScore))
  }

  /** The value under a key, or the default when it is absent. */
  function GetOr<T>(v: Option<T>, default: T): (r: T)
    ensures v.Some? ==> r == v.value
    ensures v.None? ==> r == default
  {
    if v.Some? then v.value else default
  }

  /** `set_state(state)`. Absent counters and scores fall back on the
      constructor's initial values, absent position fields clear the
      position, an absent timestamp leaves the current one in place, and the
      price history is not touched. */
  function SetState(st: StrategyState, saved: SavedState): (r: StrategyState)
    ensures r.priceHistory == st.priceHistory
    ensures r.entryTime == (if saved.entryTime.Some? then saved.entryTime else st.entryTime)
    ensures r.lastTradeTime == (if saved.lastTradeTime.Some? then saved.lastTradeTime else st.lastTradeTime)
    ensures saved == SavedState(None, None, None, None, None, None, None, None, None, None, None)
            ==> r == Init().(priceHistory := st.priceHistory,
                             entryTime := st.entryTime,
                             lastTradeTime := st.lastTradeTime)
  {
    StrategyState(
      lastSignal := saved.lastSignal,
      entryPrice := saved.entryPrice,
      entryTime := if saved.entryTime.Some? then saved.entryTime else st.entryTime,
      trailingHigh := saved.trailingHigh,
      trailingLow := saved.trailingLow,
      consecutiveLosses := GetOr(saved.consecutiveLosses, 0),
      peakPortfolioValue := GetOr(saved.peakPortfolioValue, 0.0),
      priceHistory := st.priceHistory,
      winLossHistory := GetOr(saved.winLossHistory, []),
      tradeCount := GetOr(saved.tradeCount, 0),
      lastTradeTime := if saved.lastTradeTime.Some? then saved.lastTradeTime else st.lastTradeTime,
      recentPerformanceScore := GetOr(saved.recentPerformanceScore, 1.0))
  }

  /** Restoring a snapshot of `st` into any instance `other` gives back `st`,
      except that the price history stays `other`'s, the outcome history is
      cut to its newest 50, and a timestamp `st` did not have is left as
      `other` had it. */
  lemma RoundTrip(st: StrategyState, other: StrategyState)
    ensures SetState(other, GetState(st))
            == st.(priceHistory := other.priceHistory,
                   winLossHistory := TrimOutcomes(st.winLossHistory),
                   entryTime := if st.entryTime.Some? then st.entryTime else other.entryTime,
                   lastTradeTime := if st.lastTradeTime.Some? then st.lastTradeTime else other.lastTradeTime)
  {
  }

  /** Saving and restoring into the same instance only trims the outcome
      history; a history of at most 50 outcomes survives unchanged. */
  lemma RestoreIntoSelf(st: StrategyState)
    ensures SetState(st, GetState(st)) == st.(winLossHistory := TrimOutcomes(st.winLossHistory))
    ensures |st.winLossHistory| <= SavedOutcomes ==> SetState(st, GetState(st)) == st
  {
    RoundTrip(st, st);
  }

  /** A restored state saves to the snapshot it came from, except for a
      timestamp the snapshot lacked, which the instance keeps from before. */
  lemma SaveAfterRestore(st: StrategyState, other: StrategyState)
    ensures var s := GetState(st);
            GetState(SetState(other, s))
            == s.(entryTime := if s.entryTime.Some? then s.entryTime else other.entryTime,
                  lastTradeTime := if s.lastTradeTime.Some? then s.lastTradeTime else other.lastTradeTime)
    ensures st.entryTime.Some? && st.lastTradeTime.Some?
            ==> GetState(SetState(other, GetState(st))) == GetState(st)
  {
    RoundTrip(st, other);
    TrimTwice(st.winLossHistory);
  }

  /** Trimming is idempotent. */
  lemma TrimTwice(history: seq<bool>)
    ensures TrimOutcomes(TrimOutcomes(history)) == TrimOutcomes(history)
  {
  }

  /** Restoring a snapshot of a flat state into an instance that still holds
      an entry time leaves that stale time next to the cleared entry price. */
  lemma StaleEntryTimeSurvives(st: StrategyState, other: StrategyState)
    requires st.entryPrice.None? && st.entryTime.None?
    requires other.entryTime.Some?
    ensures SetState(other, GetState(st)).entryPrice.None?
    ensures SetState(other, GetState(st)).entryTime == other.entryTime
  {
  }
}

=== FILE: risk.dfy ===
/** The two admission gates run before any indicator: trade count and
    spacing, and drawdown with its consecutive-loss counter. */
module Risk {
  import opened Common
  import opened Types

  const SecondsPerHour: int := 3600

  /** `_check_trade_limits(now)`. The count limit is checked first; then a
      previous trade must lie at least `min_time_between_trades` hours back. */
  function CheckTradeLimits(cfg: StrategyConfig, st: StrategyState, now: int): (a: Admission)
    ensures a == MaxTradesReached <==> st.tradeCount >= cfg.maxTrades
    ensures a.TooSoon? ==>
              st.tradeCount < cfg.maxTrades && st.lastTradeTime.Some?
              && a.elapsedSeconds == now - st.lastTradeTime.value
              && a.elapsedSeconds < cfg.minTimeBetweenTrades * SecondsPerHour
    ensures a.Admitted? <==>
              st.tradeCount < cfg.maxTrades
              && (st.lastTradeTime.None?
                  || now - st.lastTradeTime.value >= cfg.minTimeBetweenTrades * SecondsPerHour)
  {
    if st.tradeCount >= cfg.maxTrades then MaxTradesReached
    else if st.lastTradeTime.Some? then
      var sinceLast := now - st.lastTradeTime.value;
      var minInterval := cfg.minTimeBetweenTrades * SecondsPerHour;
      if sinceLast < minInterval then TooSoon(sinceLast) else Admitted
    else Admitted
  }

  /** Waiting never hurts: a state admitted at `now` is admitted at any later
      time, and a refusal for spacing turns into admission once the interval
      has passed. */
  lemma AdmissionPersists(cfg: StrategyConfig, st: StrategyState, now: int, later: int)
    requires now <= later
    ensures CheckTradeLimits(cfg, st, now).Admitted? ==> CheckTradeLimits(cfg, st, later).Admitted?
    ensures CheckTradeLimits(cfg, st, now).TooSoon?
            && later >= st.lastTradeTime.value + cfg.minTimeBetweenTrades * SecondsPerHour
            ==> CheckTradeLimits(cfg, st, later).Admitted?
  {
  }

  /** The gate reads only the trade count and the last trade time. */
  lemma TradeLimitsReadCounters(cfg: StrategyConfig, a: StrategyState, b: StrategyState, now: int)
    requires a.tradeCount == b.tradeCount && a.lastTradeTime == b.lastTradeTime
    ensures CheckTradeLimits(cfg, a, now) == CheckTradeLimits(cfg, b, now)
  {
  }

  /** The state after the drawdown gate and its verdict. */
  datatype Gate = Gate(state: StrategyState, ok: bool)

  /** The drawdown as a fraction of the peak. */
  function Drawdown(peak: real, value: real): real
    requires peak != 0.0
  {
    (peak - value) / peak
  }

  /** The last signal was a sell, an entry price is still set, and the
      value is below it: a loss. */
  predicate LossAfterSell(st: StrategyState, value: real)
  {
    st.lastSignal == Some(Sell) && Truthy(st.entryPrice) && value < st.entryPrice.value
  }

  /** The last signal was a buy and the value is above its entry price: a
      gain. */
  predicate GainAfterBuy(st: StrategyState, value: real)
  {
    st.lastSignal == Some(Buy) && Truthy(st.entryPrice) && value > st.entryPrice.value
  }

  /** `_check_drawdown_limits(portfolio_value)`. The first call (peak 0)
      records the value as the peak and passes. Afterwards the peak is raised
      to a new high, which also clears the loss streak; the streak then grows
      by one on a loss after a sell and is cleared on a gain after a buy; and
      the gate fails when the streak reaches its limit or the drawdown
      exceeds `max_drawdown_pct`. The drawdown divides by the raised peak,
      which must not be zero (a negative peak raised to a value of exactly 0
      would divide by zero). */
  function CheckDrawdownLimits(cfg: StrategyConfig, st: StrategyState, value: real): (g: Gate)
    requires st.peakPortfolioValue == 0.0 || Max(st.peakPortfolioValue, value) != 0.0
    ensures st.peakPortfolioValue == 0.0 ==>
              g.ok && g.state == st.(peakPortfolioValue := value)
    ensures st.peakPortfolioValue != 0.0 ==>
              g.state.peakPortfolioValue == Max(st.peakPortfolioValue, value)
    ensures g.state == st.(peakPortfolioValue := g.state.peakPortfolioValue,
                           consecutiveLosses := g.state.consecutiveLosses)
    ensures st.peakPortfolioValue != 0.0 ==>
              (g.ok <==> g.state.consecutiveLosses < cfg.consecutiveLossLimit
                         && Drawdown(g.state.peakPortfolioValue, value) <= cfg.maxDrawdownPct)
    ensures st.peakPortfolioValue != 0.0 && LossAfterSell(st, value) ==>
              g.state.consecutiveLosses
              == (if value > st.peakPortfolioValue then 0 else st.consecutiveLosses) + 1
    ensures st.peakPortfolioValue != 0.0 && GainAfterBuy(st, value) ==>
              g.state.consecutiveLosses == 0
    ensures st.peakPortfolioValue != 0.0 && !LossAfterSell(st, value) && !GainAfterBuy(st, value) ==>
              g.state.consecutiveLosses
              == (if value > st.peakPortfolioValue then 0 else st.consecutiveLosses)
  {
    if st.peakPortfolioValue == 0.0 then
      Gate(st.(peakPortfolioValue := value), true)
    else
      var st1 := if value > st.peakPortfolioValue
                 then st.(peakPortfolioValue := value, consecutiveLosses := 0)
                 else st;
      var drawdown := Drawdown(st1.peakPortfolioValue, value);
      var st2 :=
        if LossAfterSell(st1, value) then st1.(consecutiveLosses := st1.consecutiveLosses + 1)
        else if GainAfterBuy(st1, value) then st1.(consecutiveLosses := 0)
        else st1;
      if st2.consecutiveLosses >= cfg.consecutiveLossLimit then Gate(st2, false)
      else if drawdown > cfg.maxDrawdownPct then Gate(st2, false)
      else Gate(st2, true)
  }

  /** With a positive peak the drawdown test is a price floor: the gate fails
      whenever the value is below `(1 - max_drawdown_pct)` of the peak. */
  lemma DrawdownFloor(cfg: StrategyConfig, st: StrategyState, value: real)
    requires st.peakPortfolioValue > 0.0
    requires value < st.peakPortfolioValue * (1.0 - cfg.maxDrawdownPct)
    ensures !CheckDrawdownLimits(cfg, st, value).ok
  {
    var peak := CheckDrawdownLimits(cfg, st, value).state.peakPortfolioValue;
    if value <= st.peakPortfolioValue {
      assert peak == st.peakPortfolioValue;
      QuotientAbove(peak - value, peak, cfg.maxDrawdownPct);
    }
  }

  /** Dividing by a positive number keeps a strict lower bound. */
  lemma QuotientAbove(a: real, b: real, c: real)
    requires b > 0.0 && a > b * c
    ensures a / b > c
  {
    assert a / b - c == (a - b * c) / b;
  }

  /** The loss streak only moves on the last signal and entry price: while
      the strategy is flat with no entry price, a value at or below the peak
      leaves the streak as it was. */
  lemma StreakUntouchedWhenFlat(cfg: StrategyConfig, st: StrategyState, value: real)
    requires st.entryPrice.None? && st.peakPortfolioValue != 0.0 && value <= st.peakPortfolioValue
    ensures CheckDrawdownLimits(cfg, st, value).state == st
  {
  }
}

=== FILE: scoring.dfy ===
/** The conviction score that decides direction, and the position size
    derived from it. */
module Scoring {
  import opened Common
  import opened Types
  import opened Indicators

  /** The history both the signal and the score require:
      `max(rsi_period, bb_period, macd_slow)`. */
  function Lookback(cfg: StrategyConfig): int
  {
    MaxInt(MaxInt(cfg.rsiPeriod, cfg.bbPeriod), cfg.macdSlow)
  }

  /** One weighted contribution to the score and the evidence it records. */
  datatype Component = Component(delta: real, tag: Option<Evidence>)

  /** The RSI term: up to +0.4 below the oversold level, down to -0.4 above
      the overbought level. */
  function RsiComponent(cfg: StrategyConfig, prices: seq<real>): (c: Component)
    requires ValidConfig(cfg)
    ensures -0.4 <= c.delta <= 0.4
    ensures c.delta > 0.0 <==> c.tag.Some? && c.tag.value.RsiOversold?
    ensures c.delta < 0.0 <==> c.tag.Some? && c.tag.value.RsiOverbought?
    ensures c.tag.None? ==> c.delta == 0.0
    ensures c.tag.Some? ==> c.tag.value.RsiOversold? || c.tag.value.RsiOverbought?
    ensures var rsi := Rsi(prices, cfg.rsiPeriod);
            (c.tag.Some? && c.tag.value.RsiOversold?) <==> rsi.Some? && rsi.value < cfg.rsiOversold
    ensures var rsi := Rsi(prices, cfg.rsiPeriod);
            (c.tag.Some? && c.tag.value.RsiOverbought?) <==>
              rsi.Some? && cfg.rsiOversold <= rsi.value && rsi.value > cfg.rsiOverbought
    ensures var rsi := Rsi(prices, cfg.rsiPeriod);
            rsi.Some? && rsi.value < cfg.rsiOversold ==>
              c == Component(0.4 * ((cfg.rsiOversold - rsi.value) / cfg.rsiOversold),
                             Some(RsiOversold(rsi.value)))
    ensures var rsi := Rsi(prices, cfg.rsiPeriod);
            rsi.Some? && cfg.rsiOversold <= rsi.value && rsi.value > cfg.rsiOverbought ==>
              c == Component(-0.4 * ((rsi.value - cfg.rsiOverbought) / (100.0 - cfg.rsiOverbought)),
                             Some(RsiOverbought(rsi.value)))
  {
    var rsi := Rsi(prices, cfg.rsiPeriod);
    if rsi.None? then Component(0.0, None)
    else if rsi.value < cfg.rsiOversold then
      var rsiScore := (cfg.rsiOversold - rsi.value) / cfg.rsiOversold;
      FractionInUnit(cfg.rsiOversold - rsi.value, cfg.rsiOversold);
      Component(rsiScore * 0.4, Some(RsiOversold(rsi.value)))
    else if rsi.value > cfg.rsiOverbought then
      var rsiScore := (rsi.value - cfg.rsiOverbought) / (100.0 - cfg.rsiOverbought);
      FractionInUnit(rsi.value - cfg.rsiOverbought, 100.0 - cfg.rsiOverbought);
      Component(-(rsiScore * 0.4), Some(RsiOverbought(rsi.value)))
    else Component(0.0, None)
  }

  /** `0 < a <= b` gives `a / b` in `(0, 1]`. */
  lemma FractionInUnit(a: real, b: real)
    requires 0.0 < a <= b
    ensures 0.0 < a / b <= 1.0
  {
    assert a / b * b == a;
  }

  /** `min(1.0, gap / band * 2)` for a positive gap beyond a positive band. */
  function BandScore(gap: real, band: real): (r: real)
    requires 0.0 < gap && 0.0 < band
    ensures 0.0 < r <= 1.0
  {
    assert 0.0 < gap / band;
    Min(1.0, gap / band * 2.0)
  }

  /** The Bollinger term for a price and given bands: up to +0.3 below the
      lower band, down to -0.3 above the upper band, nothing in between. */
  function BandTerm(price: real, bands: Bands): (c: Component)
    requires price > 0.0
    requires bands.lower <= price && price > bands.upper ==> bands.upper > 0.0
    ensures -0.3 <= c.delta <= 0.3
    ensures c.delta > 0.0 <==> c.tag.Some? && c.tag.value.BbOversold?
    ensures c.delta < 0.0 <==> c.tag.Some? && c.tag.value.BbOverbought?
    ensures c.tag.None? ==> c.delta == 0.0
    ensures c.tag.Some? ==> c.tag.value.BbOversold? || c.tag.value.BbOverbought?
    ensures (c.tag.Some? && c.tag.value.BbOversold?) <==> price < bands.lower
    ensures (c.tag.Some? && c.tag.value.BbOverbought?) <==> bands.lower <= price && price > bands.upper
    ensures price < bands.lower ==>
              var score := BandScore(bands.lower - price, bands.lower);
              c == Component(0.3 * score, Some(BbOversold(score)))
    ensures bands.lower <= price && price > bands.upper ==>
              var score := BandScore(price - bands.upper, bands.upper);
              c == Component(-0.3 * score, Some(BbOverbought(score)))
  {
    if price < bands.lower then
      var bbScore := BandScore(bands.lower - price, bands.lower);
      Component(bbScore * 0.3, Some(BbOversold(bbScore)))
    else if price > bands.upper then
      var bbScore := BandScore(price - bands.upper, bands.upper);
      Component(-(bbScore * 0.3), Some(BbOverbought(bbScore)))
    else Component(0.0, None)
  }

  /** The Bollinger term of the market: the band term against the bands of
      the configured period, and nothing while the history is too short. */
  function BbComponent(cfg: StrategyConfig, sqrt: NonNegFn, market: MarketSnapshot): (c: Component)
    requires ValidConfig(cfg) && ValidMarket(market)
    ensures -0.3 <= c.delta <= 0.3
    ensures c.delta > 0.0 <==> c.tag.Some? && c.tag.value.BbOversold?
    ensures c.delta < 0.0 <==> c.tag.Some? && c.tag.value.BbOverbought?
    ensures c.tag.None? ==> c.delta == 0.0
    ensures c.tag.Some? ==> c.tag.value.BbOversold? || c.tag.value.BbOverbought?
    ensures var bb := BollingerBands(market.prices, cfg.bbPeriod, cfg.bbStd, sqrt);
            (c.tag.Some? && c.tag.value.BbOversold?) <==> bb.Some? && market.currentPrice < bb.value.lower
    ensures var bb := BollingerBands(market.prices, cfg.bbPeriod, cfg.bbStd, sqrt);
            (c.tag.Some? && c.tag.value.BbOverbought?) <==>
              bb.Some? && bb.value.lower <= market.currentPrice && market.currentPrice > bb.value.upper
    ensures var bb := BollingerBands(market.prices, cfg.bbPeriod, cfg.bbStd, sqrt);
            bb.Some? ==> bb.value.upper > 0.0 && c == BandTerm(market.currentPrice, bb.value)
  {
    var bb := BollingerBands(market.prices, cfg.bbPeriod, cfg.bbStd, sqrt);
    if bb.None? then Component(0.0, None)
    else
      UpperBandPositive(cfg, sqrt, market);
      BandTerm(market.currentPrice, bb.value)
  }

  /** For positive prices and a non-negative width the upper band is
      positive, so dividing by it is safe. */
  lemma UpperBandPositive(cfg: StrategyConfig, sqrt: NonNegFn, market: MarketSnapshot)
    requires ValidConfig(cfg) && ValidMarket(market) && |market.prices| >= cfg.bbPeriod
    ensures BollingerBands(market.prices, cfg.bbPeriod, cfg.bbStd, sqrt).value.upper > 0.0
  {
    var w := Last(market.prices, cfg.bbPeriod);
    assert AllPositive(w) by {
      forall i | 0 <= i < |w| ensures 0.0 < w[i] {
        assert w[i] == market.prices[|market.prices| - cfg.bbPeriod + i];
      }
    }
    SmaPositive(market.prices, cfg.bbPeriod);
  }

  /** The MACD term. Its guards compare the histogram with zero, but the
      histogram is always zero, so it contributes nothing. */
  function MacdComponent(cfg: StrategyConfig, prices: seq<real>): (c: Component)
    requires ValidConfig(cfg)
    ensures c == Component(0.0, None)
  {
    var macd := Macd(prices, cfg.macdFast, cfg.macdSlow, cfg.macdSignal);
    if macd.None? then Component(0.0, None)
    else
      var m := macd.value;
      if m.histogram > 0.0 && m.macd > m.signal then
        var macdScore := Min(1.0, m.histogram * 10.0);
        Component(macdScore * 0.3, Some(MacdBullish(macdScore)))
      else if m.histogram < 0.0 && m.macd < m.signal then
        var macdScore := Min(1.0, Abs(m.histogram) * 10.0);
        Component(-(macdScore * 0.3), Some(MacdBearish(macdScore)))
      else Component(0.0, None)
  }

  /** The tag of a component that fired, as a list of zero or one. */
  function TagOf(c: Component): (ts: seq<Evidence>)
    ensures c.tag.None? ==> ts == []
    ensures c.tag.Some? ==> ts == [c.tag.value]
  {
    if c.tag.Some? then [c.tag.value] else []
  }

  /** A score and the reason behind it. */
  datatype Scored = Scored(score: real, reason: ConvictionReason)

  /** An RSI component as `RsiComponent` promises it. */
  predicate RsiShaped(c: Component)
  {
    && -0.4 <= c.delta <= 0.4
    && (c.delta > 0.0 <==> c.tag.Some? && c.tag.value.RsiOversold?)
    && (c.delta < 0.0 <==> c.tag.Some? && c.tag.value.RsiOverbought?)
    && (c.tag.Some? ==> c.tag.value.RsiOversold? || c.tag.value.RsiOverbought?)
  }

  /** A Bollinger component as `BbComponent` promises it. */
  predicate BbShaped(c: Component)
  {
    && -0.3 <= c.delta <= 0.3
    && (c.delta > 0.0 <==> c.tag.Some? && c.tag.value.BbOversold?)
    && (c.delta < 0.0 <==> c.tag.Some? && c.tag.value.BbOverbought?)
    && (c.tag.Some? ==> c.tag.value.BbOversold? || c.tag.value.BbOverbought?)
  }

  /** Adding the three terms to a zero score and joining their tags. */
  function Combine(rsiPart: Component, bbPart: Component, macdPart: Component): (r: Scored)
    requires RsiShaped(rsiPart) && BbShaped(bbPart) && macdPart == Component(0.0, None)
    ensures r.reason.Evidence?
    ensures -0.7 <= r.score <= 0.7
    ensures |r.reason.tags| <= 2
    ensures forall t :: t in r.reason.tags ==> !t.MacdBullish? && !t.MacdBearish?
    ensures r.score > 0.0 ==> exists t :: t in r.reason.tags && (t.RsiOversold? || t.BbOversold?)
    ensures r.score < 0.0 ==> exists t :: t in r.reason.tags && (t.RsiOverbought? || t.BbOverbought?)
    ensures r.score == rsiPart.delta + bbPart.delta
    ensures r.reason == Evidence(TagOf(rsiPart) + TagOf(bbPart))
  {
    var score := 0.0 + rsiPart.delta + bbPart.delta + macdPart.delta;
    var tags := TagOf(rsiPart) + TagOf(bbPart) + TagOf(macdPart);
    assert tags == TagOf(rsiPart) + TagOf(bbPart);
    assert rsiPart.tag.Some? ==> rsiPart.tag.value in tags;
    assert bbPart.tag.Some? ==> bbPart.tag.value in tags;
    Scored(score, Evidence(tags))
  }

  /** `_high_conviction_signal`. Because the MACD term never fires, the score
      lies in `[-0.7, 0.7]`; a positive score needs a buy-side confirmation
      and a negative one a sell-side confirmation. */
  function HighConvictionSignal(cfg: StrategyConfig, num: Numerics, market: MarketSnapshot): (r: Scored)
    requires ValidConfig(cfg) && ValidMarket(market)
    ensures |market.prices| < Lookback(cfg) ==> r == Scored(0.0, InsufficientHistory)
    ensures -0.7 <= r.score <= 0.7
    ensures r.reason.Evidence? ==>
              |r.reason.tags| <= 2
              && forall t :: t in r.reason.tags ==> !t.MacdBullish? && !t.MacdBearish?
    ensures r.score > 0.0 ==>
              r.reason.Evidence?
              && exists t :: t in r.reason.tags && (t.RsiOversold? || t.BbOversold?)
    ensures r.score < 0.0 ==>
              r.reason.Evidence?
              && exists t :: t in r.reason.tags && (t.RsiOverbought? || t.BbOverbought?)
    ensures |market.prices| >= Lookback(cfg) ==>
              var rsiPart := RsiComponent(cfg, market.prices);
              var bbPart := BbComponent(cfg, num.sqrt, market);
              r == Scored(rsiPart.delta + bbPart.delta, Evidence(TagOf(rsiPart) + TagOf(bbPart)))
  {
    if |market.prices| < Lookback(cfg) then Scored(0.0, InsufficientHistory)
    else
      Combine(RsiComponent(cfg, market.prices), BbComponent(cfg, num.sqrt, market),
              MacdComponent(cfg, market.prices))
  }

  /** A quiet market carries no conviction: with enough history, an RSI
      (when there is one) between the oversold and overbought levels and the
      price inside the bands, the score is 0 with no evidence, the source's
      "no_conviction". */
  lemma QuietMarketScoresZero(cfg: StrategyConfig, num: Numerics, market: MarketSnapshot)
    requires ValidConfig(cfg) && ValidMarket(market)
    ensures var rsi := Rsi(market.prices, cfg.rsiPeriod);
            var bb := BollingerBands(market.prices, cfg.bbPeriod, cfg.bbStd, num.sqrt);
            && |market.prices| >= Lookback(cfg)
            && (rsi.None? || cfg.rsiOversold <= rsi.value <= cfg.rsiOverbought)
            && bb.Some? && bb.value.lower <= market.currentPrice <= bb.value.upper
            ==> HighConvictionSignal(cfg, num, market) == Scored(0.0, Evidence([]))
  {
  }

  /** `a <= b` divided by the same positive `c` keeps its order. */
  lemma QuotientMonotone(a: real, b: real, c: real)
    requires 0.0 < c && a <= b
    ensures a / c <= b / c
  {
    assert b / c - a / c == (b - a) / c;
  }

  /** The RSI term never increases with the RSI: a lower RSI is at least as
      bullish. */
  lemma RsiTermMonotone(cfg: StrategyConfig, lower: seq<real>, higher: seq<real>)
    requires ValidConfig(cfg)
    ensures var a := Rsi(lower, cfg.rsiPeriod);
            var b := Rsi(higher, cfg.rsiPeriod);
            a.Some? && b.Some? && a.value <= b.value ==>
              RsiComponent(cfg, lower).delta >= RsiComponent(cfg, higher).delta
  {
    var a := Rsi(lower, cfg.rsiPeriod);
    var b := Rsi(higher, cfg.rsiPeriod);
    if a.Some? && b.Some? && a.value <= b.value {
      var os := cfg.rsiOversold;
      var ob := cfg.rsiOverbought;
      if b.value < os {
        QuotientMonotone(os - b.value, os - a.value, os);
      } else if os <= a.value && a.value > ob {
        QuotientMonotone(a.value - ob, b.value - ob, 100.0 - ob);
      }
    }
  }

  // --------------------------------------------------------- position size

  /** Scaling by conviction: the configured multiplier at 0.9 and above, 1.5
      from 0.8, otherwise 1. */
  function PositionFactor(cfg: StrategyConfig, score: real): real
  {
    if score >= 0.9 then cfg.convictionPositionMultiplier
    else if score >= 0.8 then 1.5
    else 1.0
  }

  /** Scaling by recent results: 0.7 once the last five recorded trades hold
      a win rate below 80%, that is, fewer than four wins. */
  function PerformanceFactor(history: seq<bool>): (f: real)
    ensures f == 0.7 || f == 1.0
    ensures f == 0.7 <==> |history| >= 5 && CountTrue(Last(history, 5)) < 4
  {
    if |history| >= 5 then
      var recentWinRate := CountTrue(Last(history, 5)) as real / 5.0;
      if recentWinRate < 0.8 then 0.7 else 1.0
    else 1.0
  }

  /** Scaling by volatility: 0.8 above 3%, 1.2 below 1%, otherwise 1. */
  function VolatilityFactor(vol: Option<real>): real
  {
    if vol.None? then 1.0
    else if vol.value > 0.03 then 0.8
    else if vol.value < 0.01 then 1.2
    else 1.0
  }

  /** The three volatility regimes, each as an if-and-only-if: a missing
      volatility counts as normal. */
  lemma VolatilityRegimes(vol: Option<real>)
    ensures VolatilityFactor(vol) == 0.8 <==> vol.Some? && vol.value > 0.03
    ensures VolatilityFactor(vol) == 1.2 <==> vol.Some? && vol.value < 0.01
    ensures VolatilityFactor(vol) == 1.0 <==> vol.None? || 0.01 <= vol.value <= 0.03
  {
  }

  /** A calmer market never gets a smaller factor. */
  lemma VolatilityFactorNonIncreasing(calm: real, wild: real)
    requires calm <= wild
    ensures VolatilityFactor(Some(calm)) >= VolatilityFactor(Some(wild))
  {
  }

  /** The two factors that do not depend on the score. */
  function Adjustment(num: Numerics, prices: seq<real>, history: seq<bool>): (a: real)
    ensures a > 0.0
  {
    PerformanceFactor(history) * VolatilityFactor(Volatility(prices, 20, num.pstdev))
  }

  /** The adjustment lies between 0.56, for poor results in a volatile
      market, and 1.2, for good results in a calm one; it is 1 with good
      results in a normal market. */
  lemma AdjustmentBounds(num: Numerics, prices: seq<real>, history: seq<bool>)
    ensures 0.56 <= Adjustment(num, prices, history) <= 1.2
    ensures PerformanceFactor(history) == 1.0 && VolatilityFactor(Volatility(prices, 20, num.pstdev)) == 1.0
            ==> Adjustment(num, prices, history) == 1.0
  {
    VolatilityRegimes(Volatility(prices, 20, num.pstdev));
  }

  /** The base fraction scaled by conviction and by a given adjustment. */
  function ScaledSize(cfg: StrategyConfig, adjustment: real, score: real): real
  {
    cfg.basePositionPct * PositionFactor(cfg, score) * adjustment
  }

  /** The product of the base fraction and the three factors, before
      clamping. */
  function RawPositionSize(cfg: StrategyConfig, num: Numerics, prices: seq<real>,
                           history: seq<bool>, score: real): real
  {
    ScaledSize(cfg, Adjustment(num, prices, history), score)
  }

  /** `_calculate_optimal_position_size`: the raw size clamped to
      `[0.05, max_position_pct]`. The floor wins when the ceiling is below it. */
  function OptimalPositionSize(cfg: StrategyConfig, num: Numerics, prices: seq<real>,
                               history: seq<bool>, score: real): (r: real)
    ensures r >= 0.05
    ensures cfg.maxPositionPct >= 0.05 ==> r <= cfg.maxPositionPct
    ensures cfg.maxPositionPct < 0.05 ==> r == 0.05
    ensures 0.05 <= RawPositionSize(cfg, num, prices, history, score) <= cfg.maxPositionPct ==>
              r == RawPositionSize(cfg, num, prices, history, score)
  {
    var optimal := RawPositionSize(cfg, num, prices, history, score);
    Max(0.05, Min(cfg.maxPositionPct, optimal))
  }

  /** Conviction tiers: whatever the adjustment (and so for the raw size,
      which is `ScaledSize` at the adjustment of the current market and
      outcome history), a score of at least 0.9 buys the configured multiple
      of the base-tier size, and a score in `[0.8, 0.9)` buys 1.5 times it. */
  lemma ScaledTiers(cfg: StrategyConfig, adjustment: real, score: real, lowScore: real)
    requires lowScore < 0.8
    ensures score >= 0.9 ==>
              ScaledSize(cfg, adjustment, score)
              == cfg.convictionPositionMultiplier * ScaledSize(cfg, adjustment, lowScore)
    ensures 0.8 <= score < 0.9 ==>
              ScaledSize(cfg, adjustment, score) == 1.5 * ScaledSize(cfg, adjustment, lowScore)
  {
  }

  /** `k * f * a` grows with `f` when `k` and `a` are non-negative. */
  lemma ScaledMonotone(k: real, f1: real, f2: real, a: real)
    requires f1 <= f2 && 0.0 <= k && 0.0 <= a
    ensures k * f1 * a <= k * f2 * a
  {
    assert k * f2 * a - k * f1 * a == k * (f2 - f1) * a;
    assert 0.0 <= k * (f2 - f1);
  }

  /** Clamping to `[lo, hi]` (floor last) keeps order. */
  lemma ClampMonotone(lo: real, hi: real, x: real, y: real)
    requires x <= y
    ensures Max(lo, Min(hi, x)) <= Max(lo, Min(hi, y))
  {
  }

  /** Whatever the adjustment, a higher score never scales the base fraction
      by less, as long as the multiplier is at least the 1.5 of the middle
      tier and the base fraction and the adjustment are non-negative. */
  lemma ScaledSizeMonotone(cfg: StrategyConfig, adjustment: real, s1: real, s2: real)
    requires s1 <= s2 && adjustment >= 0.0
    requires cfg.convictionPositionMultiplier >= 1.5 && cfg.basePositionPct >= 0.0
    ensures ScaledSize(cfg, adjustment, s1) <= ScaledSize(cfg, adjustment, s2)
  {
    ScaledMonotone(cfg.basePositionPct, PositionFactor(cfg, s1), PositionFactor(cfg, s2), adjustment);
  }

  /** More conviction never buys less, under the same conditions. */
  lemma PositionSizeMonotone(cfg: StrategyConfig, num: Numerics, prices: seq<real>,
                             history: seq<bool>, s1: real, s2: real)
    requires s1 <= s2
    requires cfg.convictionPositionMultiplier >= 1.5 && cfg.basePositionPct >= 0.0
    ensures OptimalPositionSize(cfg, num, prices, history, s1)
            <= OptimalPositionSize(cfg, num, prices, history, s2)
  {
    ScaledSizeMonotone(cfg, Adjustment(num, prices, history), s1, s2);
    ClampMonotone(0.05, cfg.maxPositionPct, RawPositionSize(cfg, num, prices, history, s1),
                  RawPositionSize(cfg, num, prices, history, s2));
  }
}

=== FILE: strategy.dfy ===
/** The decision state machine: `generate_signal` and `on_trade` as pure
    transitions of the strategy state, the invariant they keep, and what
    follows for whole runs. */
module Strategy {
  import opened Common
  import opened Types
  import opened Scoring
  import opened Risk

  /** Cap on the recorded price history. */
  const MaxPriceHistory: nat := 200

  /** Cap on the recorded win/loss history. */
  const MaxOutcomeHistory: nat := 100

  const SecondsPerDay: int := 86400

  /** Appends the current price, keeping only the newest 200. */
  function RecordPrice(history: seq<real>, price: real): (r: seq<real>)
    ensures 1 <= |r| <= MaxPriceHistory && |r| <= |history| + 1
    ensures r[|r| - 1] == price
    ensures r[..|r| - 1] == history[|history| - (|r| - 1)..]
    ensures |history| < MaxPriceHistory ==> |r| == |history| + 1
    ensures |history| >= MaxPriceHistory ==> |r| == MaxPriceHistory
  {
    var appended := history + [price];
    if |appended| > MaxPriceHistory then Last(appended, MaxPriceHistory) else appended
  }

  /** The state with the current price recorded. */
  function Recorded(st: StrategyState, price: real): (r: StrategyState)
    ensures r == st.(priceHistory := RecordPrice(st.priceHistory, price))
  {
    st.(priceHistory := RecordPrice(st.priceHistory, price))
  }

  /** A state `generate_signal` can run on without dividing by zero: while
      long, the entry price (the divisor of the price change) is non-zero. */
  predicate EntryUsable(st: StrategyState)
  {
    !(st.lastSignal == Some(Buy) && st.entryPrice == Some(0.0))
  }

  /** An intended action and its reason, before execution. */
  datatype Decision = Decision(action: Action, reason: Reason)

  /** Direction from the score (buy when positive, otherwise sell) and the
      position check: no second buy while long, no sell unless long. */
  function Direction(st: StrategyState, scored: Scored): (d: Decision)
    ensures d.action == Buy <==> scored.score > 0.0 && st.lastSignal != Some(Buy)
    ensures d.action == Sell <==> scored.score <= 0.0 && st.lastSignal == Some(Buy)
    ensures d.action != Hold ==> d.reason == Conviction(scored.reason, scored.score)
    ensures d.action == Hold ==>
              (d.reason == AlreadyLong <==> scored.score > 0.0)
              && (d.reason == NoLongToSell <==> scored.score <= 0.0)
  {
    var finalSignal := if scored.score > 0.0 then Buy else Sell;
    var reason := Conviction(scored.reason, scored.score);
    if finalSignal == Buy && st.lastSignal == Some(Buy) then Decision(Hold, AlreadyLong)
    else if finalSignal == Sell && st.lastSignal != Some(Buy) then Decision(Hold, NoLongToSell)
    else Decision(finalSignal, reason)
  }

  /** The trailing stop is hit: long with an entry price, and the price at
      or below `trailing_stop_pct` under the high raised to it. */
  predicate StopHit(cfg: StrategyConfig, st: StrategyState, price: real)
  {
    && st.lastSignal == Some(Buy) && st.entryPrice.Some?
    && price <= RaiseHigh(st.trailingHigh, price) * (1.0 - cfg.trailingStopPct)
  }

  /** The state after the exit checks and the possibly overridden decision. */
  datatype Exit = Exit(state: StrategyState, decision: Decision)

  /** The running high after seeing `price`. */
  function RaiseHigh(high: Option<real>, price: real): (h: real)
    ensures h >= price
    ensures high.Some? ==> h >= high.value
    ensures h == price || (high.Some? && h == high.value)
  {
    if high.None? || price > high.value then price else high.value
  }

  /** The exit overrides. While long, the trailing high is raised to the
      current price, and the position is sold when the price has fallen to
      `trailing_stop_pct` below that high. The stop-loss, take-profit and
      time-exit alternatives are kept as the source writes them, as `else`
      branches of a test on the trailing high that always holds, so they
      never fire. */
  function ApplyExits(cfg: StrategyConfig, st: StrategyState, price: real, now: int,
                      intent: Decision): (r: Exit)
    requires EntryUsable(st)
    ensures !(st.lastSignal == Some(Buy) && st.entryPrice.Some?) ==> r == Exit(st, intent)
    ensures st.lastSignal == Some(Buy) && st.entryPrice.Some? ==>
              && r.state == st.(trailingHigh := Some(RaiseHigh(st.trailingHigh, price)))
              && (price <= RaiseHigh(st.trailingHigh, price) * (1.0 - cfg.trailingStopPct)
                  ==> r.decision == Decision(Sell, TrailingStop(RaiseHigh(st.trailingHigh, price), price)))
              && (price > RaiseHigh(st.trailingHigh, price) * (1.0 - cfg.trailingStopPct)
                  ==> r.decision == intent)
    ensures r.decision.reason.StopLoss? || r.decision.reason.TakeProfit? || r.decision.reason.TimeExit?
            ==> r.decision == intent
  {
    if st.lastSignal == Some(Buy) && st.entryPrice.Some? then
      var entry := st.entryPrice.value;
      var priceChangePct := (price - entry) / entry;
      var high := if st.trailingHigh.None? || price > st.trailingHigh.value
                  then Some(price) else st.trailingHigh;
      var st1 := st.(trailingHigh := high);
      var heldTooLong := st.entryTime.Some? && (now - st.entryTime.value) / SecondsPerDay > 3;
      if high.Some? then
        var trailingStopPrice := high.value * (1.0 - cfg.trailingStopPct);
        if price <= trailingStopPrice then Exit(st1, Decision(Sell, TrailingStop(high.value, price)))
        else Exit(st1, intent)
      else if priceChangePct <= -cfg.stopLossPct then
        Exit(st1, Decision(Sell, StopLoss(priceChangePct)))
      else if priceChangePct >= cfg.takeProfitPct then
        Exit(st1, Decision(Sell, TakeProfit(priceChangePct)))
      else if heldTooLong then
        Exit(st1, Decision(Sell, TimeExit))
      else Exit(st1, intent)
    else Exit(st, intent)
  }

  /** A new state and the signal returned with it. */
  datatype Step = Step(state: StrategyState, signal: Signal)

  /** Carrying out a buy: the order spends `cash` times the optimal position
      fraction, and opens the position at the current price. Since that
      fraction is at least 0.05, the buy goes ahead exactly when there is
      cash. */
  function ExecuteBuy(cfg: StrategyConfig, num: Numerics, st: StrategyState, market: MarketSnapshot,
                      cash: real, now: int, score: real, reason: Reason): (r: Step)
    requires market.currentPrice > 0.0
    ensures r.signal.action != Sell
    ensures r.signal.action == Buy <==> cash > 0.0
    ensures r.signal.action == Buy ==>
              && r.signal.reason == reason
              && r.signal.size > 0.0
              && r.signal.size * market.currentPrice
                 == cash * OptimalPositionSize(cfg, num, market.prices, st.winLossHistory, score)
              && r.state == st.(lastSignal := Some(Buy),
                                entryPrice := Some(market.currentPrice),
                                entryTime := Some(now),
                                trailingHigh := Some(market.currentPrice),
                                trailingLow := Some(market.currentPrice),
                                lastTradeTime := Some(now),
                                tradeCount := st.tradeCount + 1)
    ensures r.signal.action == Hold ==> r == Step(st, HoldSignal(InsufficientCash))
  {
    var price := market.currentPrice;
    var positionSizePct := OptimalPositionSize(cfg, num, market.prices, st.winLossHistory, score);
    var notional := cash * positionSizePct;
    if notional <= 0.0 then Step(st, HoldSignal(InsufficientCash))
    else
      var size := notional / price;
      if size <= 0.0 then Step(st, HoldSignal(InvalidSize))
      else
        Step(st.(lastSignal := Some(Buy),
                 entryPrice := Some(price),
                 entryTime := Some(now),
                 trailingHigh := Some(price),
                 trailingLow := Some(price),
                 lastTradeTime := Some(now),
                 tradeCount := st.tradeCount + 1),
             Signal(Buy, size, reason))
  }

  /** Carrying out a sell: the whole quantity is sold and the position
      forgotten; a stop exit is remembered as the last signal "sell", any
      other sell leaves no last signal. */
  function ExecuteSell(st: StrategyState, quantity: real, now: int, reason: Reason): (r: Step)
    ensures r.signal.action != Buy
    ensures r.signal.action == Sell <==> quantity > 0.0
    ensures r.signal.action == Sell ==>
              && r.signal == Signal(Sell, quantity, reason)
              && r.state == st.(lastSignal := if reason.StopLoss? || reason.TrailingStop?
                                              then Some(Sell) else None,
                                entryPrice := None,
                                entryTime := None,
                                trailingHigh := None,
                                trailingLow := None,
                                lastTradeTime := Some(now),
                                tradeCount := st.tradeCount + 1)
    ensures r.signal.action == Hold ==> r == Step(st, HoldSignal(NoPositionToSell))
  {
    if quantity <= 0.0 then Step(st, HoldSignal(NoPositionToSell))
    else
      var isStopLoss := reason.StopLoss? || reason.TrailingStop?;
      Step(st.(lastSignal := if isStopLoss then Some(Sell) else None,
               entryPrice := None,
               entryTime := None,
               trailingHigh := None,
               trailingLow := None,
               lastTradeTime := Some(now),
               tradeCount := st.tradeCount + 1),
           Signal(Sell, quantity, reason))
  }

  /** The direction, the exit overrides and the execution, for a score that
      passed the conviction threshold. It touches only the position fields
      and the trade bookkeeping. */
  function Proceed(cfg: StrategyConfig, num: Numerics, st: StrategyState,
                   market: MarketSnapshot, portfolio: Portfolio, now: int, scored: Scored): (r: Step)
    requires market.currentPrice > 0.0 && EntryUsable(st)
    ensures r.state == st.(lastSignal := r.state.lastSignal,
                           entryPrice := r.state.entryPrice,
                           entryTime := r.state.entryTime,
                           trailingHigh := r.state.trailingHigh,
                           trailingLow := r.state.trailingLow,
                           lastTradeTime := r.state.lastTradeTime,
                           tradeCount := r.state.tradeCount)
    ensures r.signal.action != Hold ==>
              r.signal.reason == Conviction(scored.reason, scored.score) || r.signal.reason.TrailingStop?
    ensures r.signal.reason.Conviction? ==> r.signal.reason == Conviction(scored.reason, scored.score)
    ensures r.signal.action == Buy <==>
              st.lastSignal != Some(Buy) && scored.score > 0.0 && portfolio.cash > 0.0
    ensures r.signal.action == Sell <==>
              && st.lastSignal == Some(Buy) && portfolio.quantity > 0.0
              && (scored.score <= 0.0 || StopHit(cfg, st, market.currentPrice))
    ensures StopHit(cfg, st, market.currentPrice) && portfolio.quantity > 0.0 ==>
              r.signal.reason
              == TrailingStop(RaiseHigh(st.trailingHigh, market.currentPrice), market.currentPrice)
    ensures r.signal.action == Buy ==>
              && st.lastSignal != Some(Buy)
              && r.signal.reason == Conviction(scored.reason, scored.score) && scored.score > 0.0
              && r.signal.size > 0.0
              && r.state.lastSignal == Some(Buy)
              && r.state.entryPrice == Some(market.currentPrice)
              && r.state.trailingHigh == Some(market.currentPrice)
              && r.state.entryTime == Some(now)
              && r.state.lastTradeTime == Some(now)
              && r.state.tradeCount == st.tradeCount + 1
    ensures r.signal.action == Sell ==>
              && st.lastSignal == Some(Buy)
              && portfolio.quantity > 0.0
              && r.signal.size == portfolio.quantity
              && r.state.entryPrice.None? && r.state.entryTime.None? && r.state.trailingHigh.None?
              && r.state.lastTradeTime == Some(now)
              && r.state.tradeCount == st.tradeCount + 1
              && (r.state.lastSignal == Some(Sell) <==> r.signal.reason.TrailingStop?)
              && (r.state.lastSignal.None? <==> !r.signal.reason.TrailingStop?)
    ensures r.signal.action == Hold ==>
              && r.signal.size == 0.0
              && r.state.tradeCount == st.tradeCount
              && r.state.lastSignal == st.lastSignal
              && r.state.entryPrice == st.entryPrice
              && r.state.entryTime == st.entryTime
              && r.state.lastTradeTime == st.lastTradeTime
              && (st.entryPrice.None? ==> r.state.trailingHigh == st.trailingHigh)
    ensures r.signal.action == Hold && st.trailingHigh.Some? && st.entryPrice.Some?
            ==> r.state.trailingHigh.Some? && r.state.trailingHigh.value >= st.trailingHigh.value
    ensures !r.signal.reason.StopLoss? && !r.signal.reason.TakeProfit? && !r.signal.reason.TimeExit?
  {
    var intent := Direction(st, scored);
    var exit := ApplyExits(cfg, st, market.currentPrice, now, intent);
    var d := exit.decision;
    if d.action == Buy then
      ExecuteBuy(cfg, num, exit.state, market, portfolio.cash, now, scored.score, d.reason)
    else if d.action == Sell then
      ExecuteSell(exit.state, portfolio.quantity, now, d.reason)
    else
      Step(exit.state, HoldSignal(d.reason))
  }

  /** Everything after the two risk gates: the conviction threshold, then
      the rest. A signal carrying the conviction reason carries the score of
      the market at hand, at or beyond the threshold. */
  function Decide(cfg: StrategyConfig, num: Numerics, st: StrategyState,
                  market: MarketSnapshot, portfolio: Portfolio, now: int): (r: Step)
    requires ValidConfig(cfg) && ValidMarket(market) && EntryUsable(st)
    ensures Abs(HighConvictionSignal(cfg, num, market).score) >= cfg.convictionThreshold ==>
              r == Proceed(cfg, num, st, market, portfolio, now, HighConvictionSignal(cfg, num, market))
    ensures Abs(HighConvictionSignal(cfg, num, market).score) < cfg.convictionThreshold ==>
              r == Step(st, HoldSignal(LowConviction(HighConvictionSignal(cfg, num, market).score)))
    ensures r.signal.reason.Conviction? ==>
              r.signal.reason.score == HighConvictionSignal(cfg, num, market).score
              && Abs(r.signal.reason.score) >= cfg.convictionThreshold
    ensures r.state == st.(lastSignal := r.state.lastSignal,
                           entryPrice := r.state.entryPrice,
                           entryTime := r.state.entryTime,
                           trailingHigh := r.state.trailingHigh,
                           trailingLow := r.state.trailingLow,
                           lastTradeTime := r.state.lastTradeTime,
                           tradeCount := r.state.tradeCount)
    ensures r.signal.action != Hold ==> r.signal.reason.Conviction? || r.signal.reason.TrailingStop?
    ensures r.signal.action == Buy ==> st.lastSignal != Some(Buy)
    ensures r.signal.action == Hold ==>
              && r.signal.size == 0.0
              && r.state.tradeCount == st.tradeCount
              && r.state.lastSignal == st.lastSignal
              && r.state.entryPrice == st.entryPrice
              && r.state.entryTime == st.entryTime
              && r.state.lastTradeTime == st.lastTradeTime
              && (st.entryPrice.None? ==> r.state.trailingHigh == st.trailingHigh)
    ensures r.signal.action == Hold && st.trailingHigh.Some? && st.entryPrice.Some?
            ==> r.state.trailingHigh.Some? && r.state.trailingHigh.value >= st.trailingHigh.value
    ensures !r.signal.reason.StopLoss? && !r.signal.reason.TakeProfit? && !r.signal.reason.TimeExit?
  {
    var scored := HighConvictionSignal(cfg, num, market);
    if Abs(scored.score) < cfg.convictionThreshold then
      Step(st, HoldSignal(LowConviction(scored.score)))
    else
      Proceed(cfg, num, st, market, portfolio, now, scored)
  }

  /** Where the gates leave a tick: stopped with a hold, or passed on with
      the updated state. */
  datatype Gating = Stop(step: Step) | Pass(state: StrategyState)

  /** Cash plus the held quantity at the current price. */
  function PortfolioValue(portfolio: Portfolio, price: real): real
  {
    portfolio.cash + portfolio.quantity * price
  }

  /** The peak raised to `value` when that is a new high. */
  function RaisePeak(st: StrategyState, value: real): (r: StrategyState)
    ensures r == st.(peakPortfolioValue := Max(st.peakPortfolioValue, value))
  {
    if value > st.peakPortfolioValue then st.(peakPortfolioValue := value) else st
  }

  /** The two risk gates for a tick whose portfolio is worth `value`: the
      peak is raised to the value first, then the trade limits are checked,
      then the drawdown. Only the peak and the loss streak change, and the
      peak ends at or above the value. */
  function Gates(cfg: StrategyConfig, st: StrategyState, value: real, now: int): (g: Gating)
    ensures var s := if g.Stop? then g.step.state else g.state;
            && s == st.(peakPortfolioValue := s.peakPortfolioValue,
                        consecutiveLosses := s.consecutiveLosses)
            && s.peakPortfolioValue >= value
            && (st.consecutiveLosses >= 0 ==> s.consecutiveLosses >= 0)
            && (!Truthy(st.entryPrice) ==> s.consecutiveLosses == st.consecutiveLosses)
    ensures g.Stop? ==>
              g.step.signal.action == Hold
              && (g.step.signal.reason.TradeLimit? || g.step.signal.reason == DrawdownLimit)
    ensures g.Pass? <==>
              CheckTradeLimits(cfg, st, now).Admitted? && CheckDrawdownLimits(cfg, RaisePeak(st, value), value).ok
    ensures g.Pass? ==> g.state == CheckDrawdownLimits(cfg, RaisePeak(st, value), value).state
  {
    var raised := RaisePeak(st, value);
    var admission := CheckTradeLimits(cfg, raised, now);
    if !admission.Admitted? then
      Stop(Step(raised, HoldSignal(TradeLimit(admission))))
    else
      var gate := CheckDrawdownLimits(cfg, raised, value);
      if !gate.ok then Stop(Step(gate.state, HoldSignal(DrawdownLimit)))
      else Pass(gate.state)
  }

  /** The part of `generate_signal` before any indicator: record the price,
      require enough history, then the risk gates. Only the price history,
      the peak and the loss streak change here. */
  function Admit(cfg: StrategyConfig, st: StrategyState, market: MarketSnapshot,
                 portfolio: Portfolio, now: int): (g: Gating)
    ensures var s := if g.Stop? then g.step.state else g.state;
            && s == st.(priceHistory := RecordPrice(st.priceHistory, market.currentPrice),
                        peakPortfolioValue := s.peakPortfolioValue,
                        consecutiveLosses := s.consecutiveLosses)
            && (st.consecutiveLosses >= 0 ==> s.consecutiveLosses >= 0)
            && (!Truthy(st.entryPrice) ==> s.consecutiveLosses == st.consecutiveLosses)
    ensures |market.prices| < Lookback(cfg) ==>
              g == Stop(Step(st.(priceHistory := RecordPrice(st.priceHistory, market.currentPrice)),
                             HoldSignal(InsufficientData)))
    ensures g.Stop? ==>
              g.step.signal.action == Hold
              && (g.step.signal.reason == InsufficientData || g.step.signal.reason.TradeLimit?
                  || g.step.signal.reason == DrawdownLimit)
    ensures g.Pass? ==> |market.prices| >= Lookback(cfg) && CheckTradeLimits(cfg, st, now).Admitted?
  {
    var recorded := Recorded(st, market.currentPrice);
    if |market.prices| < Lookback(cfg) then
      Stop(Step(recorded, HoldSignal(InsufficientData)))
    else
      TradeLimitsReadCounters(cfg, recorded, st, now);
      Gates(cfg, recorded, PortfolioValue(portfolio, market.currentPrice), now)
  }

  /** A tick passes the gates exactly when the history is long enough, the
      trade limits admit it, and the drawdown gate, met with the peak raised
      to the current portfolio value, lets it through; it then carries on
      with the state that gate leaves behind. */
  lemma AdmitPassesGates(cfg: StrategyConfig, st: StrategyState, market: MarketSnapshot,
                         portfolio: Portfolio, now: int)
    ensures var g := Admit(cfg, st, market, portfolio, now);
            var value := PortfolioValue(portfolio, market.currentPrice);
            var gate := CheckDrawdownLimits(cfg, RaisePeak(Recorded(st, market.currentPrice), value), value);
            && (g.Pass? <==> |market.prices| >= Lookback(cfg) && CheckTradeLimits(cfg, st, now).Admitted? && gate.ok)
            && (g.Pass? ==> g.state == gate.state)
  {
    if |market.prices| >= Lookback(cfg) {
      TradeLimitsReadCounters(cfg, Recorded(st, market.currentPrice), st, now);
    }
  }

  /** `generate_signal(market, portfolio)` at time `now`.
      Gates in order: history length, trade count and spacing, drawdown,
      conviction threshold. A buy needs a positive score at or above the
      threshold while not long; a sell needs a long position and units to
      sell. Each trade counts once. The stop-loss, take-profit and time exits
      never fire. */
  function GenerateSignal(cfg: StrategyConfig, num: Numerics, st: StrategyState,
                          market: MarketSnapshot, portfolio: Portfolio, now: int): (r: Step)
    requires ValidConfig(cfg) && ValidMarket(market) && EntryUsable(st)
    ensures r.state.priceHistory == RecordPrice(st.priceHistory, market.currentPrice)
    ensures |market.prices| < Lookback(cfg) ==>
              r == Step(st.(priceHistory := r.state.priceHistory), HoldSignal(InsufficientData))
    ensures r.signal.action != Hold ==>
              && |market.prices| >= Lookback(cfg)
              && CheckTradeLimits(cfg, st, now).Admitted?
              && (r.signal.reason.Conviction? || r.signal.reason.TrailingStop?)
    ensures r.signal.reason.Conviction? ==>
              r.signal.reason.score == HighConvictionSignal(cfg, num, market).score
              && Abs(r.signal.reason.score) >= cfg.convictionThreshold
    ensures r.state.winLossHistory == st.winLossHistory
    ensures r.state.recentPerformanceScore == st.recentPerformanceScore
    ensures r.signal.action == Hold && st.trailingHigh.Some? && st.entryPrice.Some?
            ==> r.state.trailingHigh.Some? && r.state.trailingHigh.value >= st.trailingHigh.value
    ensures !r.signal.reason.StopLoss? && !r.signal.reason.TakeProfit? && !r.signal.reason.TimeExit?
  {
    var admitted := Admit(cfg, st, market, portfolio, now);
    if admitted.Stop? then admitted.step
    else Decide(cfg, num, admitted.state, market, portfolio, now)
  }

  /** A tick that holds leaves the position and the trade bookkeeping as
      they were; only the price history, the peak, the loss streak and, while
      long, the trailing high can move. */
  lemma HoldKeepsPosition(cfg: StrategyConfig, num: Numerics, st: StrategyState,
                          market: MarketSnapshot, portfolio: Portfolio, now: int)
    requires ValidConfig(cfg) && ValidMarket(market) && EntryUsable(st)
    ensures var r := GenerateSignal(cfg, num, st, market, portfolio, now);
            r.signal.action == Hold ==>
              && r.signal.size == 0.0
              && r.state.tradeCount == st.tradeCount
              && r.state.lastSignal == st.lastSignal
              && r.state.entryPrice == st.entryPrice
              && r.state.entryTime == st.entryTime
              && r.state.lastTradeTime == st.lastTradeTime
              && (st.entryPrice.None? ==> r.state.trailingHigh == st.trailingHigh)
  {
    var g := Admit(cfg, st, market, portfolio, now);
    if g.Pass? {
      assert GenerateSignal(cfg, num, st, market, portfolio, now)
             == Decide(cfg, num, g.state, market, portfolio, now);
    } else {
      assert GenerateSignal(cfg, num, st, market, portfolio, now) == g.step;
    }
  }

  /** A tick that gets past the gates is decided on the conviction score
      alone: at or beyond the threshold it proceeds from the state the
      drawdown gate left, below it it holds for low conviction. */
  lemma GatedTickDecides(cfg: StrategyConfig, num: Numerics, st: StrategyState,
                         market: MarketSnapshot, portfolio: Portfolio, now: int)
    requires ValidConfig(cfg) && ValidMarket(market) && EntryUsable(st)
    ensures var r := GenerateSignal(cfg, num, st, market, portfolio, now);
            var value := PortfolioValue(portfolio, market.currentPrice);
            var gate := CheckDrawdownLimits(cfg, RaisePeak(Recorded(st, market.currentPrice), value), value);
            var scored := HighConvictionSignal(cfg, num, market);
            |market.prices| >= Lookback(cfg) && CheckTradeLimits(cfg, st, now).Admitted? && gate.ok ==>
              && (Abs(scored.score) >= cfg.convictionThreshold ==>
                    r == Proceed(cfg, num, gate.state, market, portfolio, now, scored))
              && (Abs(scored.score) < cfg.convictionThreshold ==>
                    r == Step(gate.state, HoldSignal(LowConviction(scored.score))))
  {
    AdmitPassesGates(cfg, st, market, portfolio, now);
  }

  /** The buy side of the above, spelled out: past the look-back, within the
      trade limits and the drawdown gate, a positive score at or beyond the
      threshold buys whenever the strategy is not long and there is cash. */
  lemma GenerateSignalBuys(cfg: StrategyConfig, num: Numerics, st: StrategyState,
                           market: MarketSnapshot, portfolio: Portfolio, now: int)
    requires ValidConfig(cfg) && ValidMarket(market) && EntryUsable(st)
    ensures var value := PortfolioValue(portfolio, market.currentPrice);
            var gate := CheckDrawdownLimits(cfg, RaisePeak(Recorded(st, market.currentPrice), value), value);
            var scored := HighConvictionSignal(cfg, num, market);
            && |market.prices| >= Lookback(cfg) && CheckTradeLimits(cfg, st, now).Admitted? && gate.ok
            && scored.score > 0.0 && scored.score >= cfg.convictionThreshold
            && st.lastSignal != Some(Buy) && portfolio.cash > 0.0
            ==> GenerateSignal(cfg, num, st, market, portfolio, now).signal.action == Buy
  {
    GatedTickDecides(cfg, num, st, market, portfolio, now);
  }

  /** A tick only trades when the loss-streak and drawdown gate held: once
      the raised peak is non-zero, the streak the trade leaves is below the
      limit and the drawdown from the peak is within the maximum; a buy
      further needs the streak it started from to be below the limit. */
  lemma TradeNeedsRiskGates(cfg: StrategyConfig, num: Numerics, st: StrategyState,
                            market: MarketSnapshot, portfolio: Portfolio, now: int)
    requires ValidConfig(cfg) && ValidMarket(market) && EntryUsable(st)
    ensures var r := GenerateSignal(cfg, num, st, market, portfolio, now);
            var value := PortfolioValue(portfolio, market.currentPrice);
            r.signal.action != Hold && Max(st.peakPortfolioValue, value) != 0.0 ==>
              && r.state.consecutiveLosses < cfg.consecutiveLossLimit
              && Drawdown(r.state.peakPortfolioValue, value) <= cfg.maxDrawdownPct
    ensures var r := GenerateSignal(cfg, num, st, market, portfolio, now);
            var value := PortfolioValue(portfolio, market.currentPrice);
            r.signal.action == Buy && Max(st.peakPortfolioValue, value) != 0.0 ==>
              st.consecutiveLosses < cfg.consecutiveLossLimit
  {
    var value := PortfolioValue(portfolio, market.currentPrice);
    var raised := RaisePeak(Recorded(st, market.currentPrice), value);
    var g := Admit(cfg, st, market, portfolio, now);
    AdmitPassesGates(cfg, st, market, portfolio, now);
    if g.Pass? {
      assert GenerateSignal(cfg, num, st, market, portfolio, now)
             == Decide(cfg, num, g.state, market, portfolio, now);
      assert raised.peakPortfolioValue == Max(st.peakPortfolioValue, value);
      if st.lastSignal != Some(Buy) {
        assert !GainAfterBuy(raised, value);
      }
    } else {
      assert GenerateSignal(cfg, num, st, market, portfolio, now) == g.step;
    }
  }

  // ------------------------------------------------------------- on_trade

  /** Appends a trade outcome, dropping the oldest once more than 100 are
      held. */
  function RecordOutcome(history: seq<bool>, win: bool): (r: seq<bool>)
    ensures |r| == if |history| >= MaxOutcomeHistory then |history| else |history| + 1
    ensures |r| >= 1 && r[|r| - 1] == win
    ensures r[..|r| - 1] == history[|history| - (|r| - 1)..]
  {
    var appended := history + [win];
    if |appended| > MaxOutcomeHistory then appended[1..] else appended
  }

  /** `on_trade(signal, price, size, timestamp)`. Only an executed sell while
      an entry price is set changes anything: it records whether the sale
      beat the entry, resets or extends the loss streak, and nudges the
      performance score up by 0.05 (capped at 1.2) or down by 0.1 (floored at
      0.8). */
  function OnTrade(st: StrategyState, signal: Signal, price: real, size: real, timestamp: int)
    : (r: StrategyState)
    ensures !(signal.action == Sell && size > 0.0 && Truthy(st.entryPrice)) ==> r == st
    ensures signal.action == Sell && size > 0.0 && Truthy(st.entryPrice) ==>
              && r == st.(winLossHistory := r.winLossHistory,
                          consecutiveLosses := r.consecutiveLosses,
                          recentPerformanceScore := r.recentPerformanceScore)
              && r.winLossHistory == RecordOutcome(st.winLossHistory, price > st.entryPrice.value)
              && r.consecutiveLosses == (if price > st.entryPrice.value then 0
                                         else st.consecutiveLosses + 1)
    ensures |st.winLossHistory| <= MaxOutcomeHistory ==> |r.winLossHistory| <= MaxOutcomeHistory
    ensures 0.8 <= st.recentPerformanceScore <= 1.2 ==> 0.8 <= r.recentPerformanceScore <= 1.2
    ensures signal.action == Sell && size > 0.0 && Truthy(st.entryPrice) ==>
              && (price > st.entryPrice.value && st.recentPerformanceScore <= 1.2
                  ==> r.recentPerformanceScore >= st.recentPerformanceScore)
              && (price <= st.entryPrice.value && st.recentPerformanceScore >= 0.8
                  ==> r.recentPerformanceScore < st.recentPerformanceScore
                      || r.recentPerformanceScore == 0.8)
    ensures signal.action == Sell && size > 0.0 && Truthy(st.entryPrice) ==>
              && (price > st.entryPrice.value ==>
                    r.recentPerformanceScore
                    == if st.recentPerformanceScore <= 1.15 then st.recentPerformanceScore + 0.05
                       else 1.2)
              && (price <= st.entryPrice.value ==>
                    r.recentPerformanceScore
                    == if st.recentPerformanceScore >= 0.9 then st.recentPerformanceScore - 0.1
                       else 0.8)
  {
    if signal.action == Sell && size > 0.0 && Truthy(st.entryPrice) then
      var isWin := price > st.entryPrice.value;
      var score := st.recentPerformanceScore;
      st.(winLossHistory := RecordOutcome(st.winLossHistory, isWin),
          consecutiveLosses := if isWin then 0 else st.consecutiveLosses + 1,
          recentPerformanceScore := if isWin then Min(1.2, score + 0.05) else Max(0.8, score - 0.1))
    else st
  }

  // ------------------------------------------------------------ invariant

  /** What holds in every state a run can reach from the initial one: long
      exactly when an entry price is set, a positive entry price with a
      trailing high at or above it and an entry time, nothing left over when
      flat, trades within budget, bounded histories and a performance score
      in `[0.8, 1.2]`. */
  predicate Consistent(cfg: StrategyConfig, st: StrategyState)
  {
    && (st.lastSignal == Some(Buy) <==> st.entryPrice.Some?)
    && (st.entryPrice.Some? ==>
          && st.entryPrice.value > 0.0
          && st.trailingHigh.Some? && st.trailingHigh.value >= st.entryPrice.value
          && st.entryTime.Some?)
    && (st.entryPrice.None? ==> st.trailingHigh.None? && st.entryTime.None?)
    && 0 <= st.tradeCount <= cfg.maxTrades
    && 0 <= st.consecutiveLosses
    && |st.priceHistory| <= MaxPriceHistory
    && |st.winLossHistory| <= MaxOutcomeHistory
    && 0.8 <= st.recentPerformanceScore <= 1.2
  }

  lemma InitConsistent(cfg: StrategyConfig)
    requires cfg.maxTrades >= 0
    ensures Consistent(cfg, Init())
  {
  }

  /** The decision stage keeps the invariant when a trade is still within
      budget. */
  lemma ProceedKeepsConsistent(cfg: StrategyConfig, num: Numerics, st: StrategyState,
                               market: MarketSnapshot, portfolio: Portfolio, now: int, scored: Scored)
    requires market.currentPrice > 0.0 && Consistent(cfg, st) && st.tradeCount < cfg.maxTrades
    ensures Consistent(cfg, Proceed(cfg, num, st, market, portfolio, now, scored).state)
  {
    var r := Proceed(cfg, num, st, market, portfolio, now, scored);
    if r.signal.action == Hold && st.entryPrice.Some? {
      assert r.state.trailingHigh.value >= st.trailingHigh.value;
    }
  }

  /** `generate_signal` keeps the invariant. */
  lemma GenerateSignalKeepsConsistent(cfg: StrategyConfig, num: Numerics, st: StrategyState,
                                      market: MarketSnapshot, portfolio: Portfolio, now: int)
    requires ValidConfig(cfg) && ValidMarket(market) && Consistent(cfg, st)
    ensures Consistent(cfg, GenerateSignal(cfg, num, st, market, portfolio, now).state)
  {
    var g := Admit(cfg, st, market, portfolio, now);
    AdmitKeepsConsistent(cfg, st, market, portfolio, now);
    if g.Pass? {
      var scored := HighConvictionSignal(cfg, num, market);
      var r := Decide(cfg, num, g.state, market, portfolio, now);
      if Abs(scored.score) >= cfg.convictionThreshold {
        assert g.state.tradeCount < cfg.maxTrades;
        ProceedKeepsConsistent(cfg, num, g.state, market, portfolio, now, scored);
        assert r == Proceed(cfg, num, g.state, market, portfolio, now, scored);
      } else {
        assert r.state == g.state;
      }
    }
  }

  /** The gates keep the invariant, and a tick they pass still has room for
      a trade. */
  lemma AdmitKeepsConsistent(cfg: StrategyConfig, st: StrategyState, market: MarketSnapshot,
                             portfolio: Portfolio, now: int)
    requires market.currentPrice > 0.0 && Consistent(cfg, st)
    ensures var g := Admit(cfg, st, market, portfolio, now);
            Consistent(cfg, if g.Stop? then g.step.state else g.state)
    ensures var g := Admit(cfg, st, market, portfolio, now);
            g.Pass? ==> g.state.tradeCount < cfg.maxTrades
  {
  }

  /** A buy opens a position at the current price with a positive size,
      only from a state that was not long, only for a positive score. */
  lemma BuyOpensPosition(cfg: StrategyConfig, num: Numerics, st: StrategyState,
                         market: MarketSnapshot, portfolio: Portfolio, now: int)
    requires ValidConfig(cfg) && ValidMarket(market) && EntryUsable(st)
    ensures var r := GenerateSignal(cfg, num, st, market, portfolio, now);
            r.signal.action == Buy ==>
            && st.lastSignal != Some(Buy)
            && portfolio.cash > 0.0
            && r.signal.reason.Conviction? && r.signal.reason.score > 0.0
            && r.signal.size > 0.0
            && r.state.lastSignal == Some(Buy)
            && r.state.entryPrice == Some(market.currentPrice)
            && r.state.trailingHigh == Some(market.currentPrice)
            && r.state.entryTime == Some(now)
            && r.state.lastTradeTime == Some(now)
            && r.state.tradeCount == st.tradeCount + 1
  {
    var g := Admit(cfg, st, market, portfolio, now);
    assert GenerateSignal(cfg, num, st, market, portfolio, now).signal.action == Buy ==> g.Pass?;
  }

  /** A sell closes a long position in full: the entry, its time and the
      trailing high are cleared, and the last signal becomes "sell" exactly
      for a trailing-stop exit, and nothing otherwise. */
  lemma SellClosesPosition(cfg: StrategyConfig, num: Numerics, st: StrategyState,
                           market: MarketSnapshot, portfolio: Portfolio, now: int)
    requires ValidConfig(cfg) && ValidMarket(market) && EntryUsable(st)
    ensures var r := GenerateSignal(cfg, num, st, market, portfolio, now);
            r.signal.action == Sell ==>
            && st.lastSignal == Some(Buy)
            && portfolio.quantity > 0.0
            && r.signal.size == portfolio.quantity
            && r.state.entryPrice.None? && r.state.entryTime.None? && r.state.trailingHigh.None?
            && r.state.lastTradeTime == Some(now)
            && r.state.tradeCount == st.tradeCount + 1
            && (r.state.lastSignal == Some(Sell) <==> r.signal.reason.TrailingStop?)
            && (r.state.lastSignal.None? <==> r.signal.reason.Conviction?)
  {
    var g := Admit(cfg, st, market, portfolio, now);
    assert GenerateSignal(cfg, num, st, market, portfolio, now).signal.action == Sell ==> g.Pass?;
  }

  /** The peak is raised before the drawdown gate sees the portfolio value,
      so the gate's reset of the loss streak on a new high never fires inside
      a tick. Without an entry price the streak therefore passes through a
      tick unchanged, however high the portfolio climbs. */
  lemma FlatTickKeepsStreak(cfg: StrategyConfig, num: Numerics, st: StrategyState,
                            market: MarketSnapshot, portfolio: Portfolio, now: int)
    requires ValidConfig(cfg) && ValidMarket(market) && EntryUsable(st)
    requires !Truthy(st.entryPrice)
    ensures GenerateSignal(cfg, num, st, market, portfolio, now).state.consecutiveLosses
            == st.consecutiveLosses
  {
    var g := Admit(cfg, st, market, portfolio, now);
    if g.Pass? {
      var scored := HighConvictionSignal(cfg, num, market);
      var r := Decide(cfg, num, g.state, market, portfolio, now);
      if Abs(scored.score) >= cfg.convictionThreshold {
        assert r == Proceed(cfg, num, g.state, market, portfolio, now, scored);
      }
    }
  }

  /** `on_trade` keeps the invariant. */
  lemma OnTradeKeepsConsistent(cfg: StrategyConfig, st: StrategyState, signal: Signal,
                               price: real, size: real, timestamp: int)
    requires Consistent(cfg, st)
    ensures Consistent(cfg, OnTrade(st, signal, price, size, timestamp))
  {
  }

  // ------------------------------------------------------------------ runs

  /** What the host feeds the strategy: a market tick, or the report of an
      executed trade. */
  datatype Event =
    | Tick(market: MarketSnapshot, portfolio: Portfolio, now: int)
    | Fill(signal: Signal, price: real, size: real, timestamp: int)

  predicate ValidEvents(events: seq<Event>)
  {
    forall i :: 0 <= i < |events| ==> events[i].Tick? ==> ValidMarket(events[i].market)
  }

  /** The state after one event: a tick or a trade report. */
  function ApplyEvent(cfg: StrategyConfig, num: Numerics, st: StrategyState, e: Event): (r: StrategyState)
    requires ValidConfig(cfg) && Consistent(cfg, st)
    requires e.Tick? ==> ValidMarket(e.market)
    ensures Consistent(cfg, r)
  {
    match e
    case Tick(market, portfolio, now) =>
      GenerateSignalKeepsConsistent(cfg, num, st, market, portfolio, now);
      GenerateSignal(cfg, num, st, market, portfolio, now).state
    case Fill(signal, price, size, timestamp) =>
      OnTradeKeepsConsistent(cfg, st, signal, price, size, timestamp);
      OnTrade(st, signal, price, size, timestamp)
  }

  /** The state after a whole run of events. Every reachable state is
      consistent: trades never exceed `max_trades`, the histories stay
      within their caps, and the strategy is long exactly when it holds an
      entry price. */
  function Run(cfg: StrategyConfig, num: Numerics, st: StrategyState, events: seq<Event>)
    : (r: StrategyState)
    requires ValidConfig(cfg) && Consistent(cfg, st) && ValidEvents(events)
    ensures Consistent(cfg, r)
    ensures r.tradeCount >= st.tradeCount
    decreases |events|
  {
    if |events| == 0 then st
    else
      var next := ApplyEvent(cfg, num, st, events[0]);
      assert ValidEvents(events[1..]) by {
        forall i | 0 <= i < |events[1..]| ensures events[1..][i].Tick? ==> ValidMarket(events[1..][i].market) {
          assert events[1..][i] == events[i + 1];
        }
      }
      StepNeverLowersTradeCount(cfg, num, st, events[0]);
      Run(cfg, num, next, events[1..])
  }

  /** Trades are only ever added. */
  lemma StepNeverLowersTradeCount(cfg: StrategyConfig, num: Numerics, st: StrategyState, e: Event)
    requires ValidConfig(cfg) && Consistent(cfg, st)
    requires e.Tick? ==> ValidMarket(e.market)
    ensures ApplyEvent(cfg, num, st, e).tradeCount >= st.tradeCount
  {
  }

  /** The conviction score never reaches beyond 0.7, so with a threshold
      above that — the default 0.9 among them — every tick holds, whatever
      the state, market or portfolio. */
  lemma HighThresholdAlwaysHolds(cfg: StrategyConfig, num: Numerics, st: StrategyState,
                                 market: MarketSnapshot, portfolio: Portfolio, now: int)
    requires ValidConfig(cfg) && ValidMarket(market) && EntryUsable(st)
    requires cfg.convictionThreshold > 0.7
    ensures GenerateSignal(cfg, num, st, market, portfolio, now).signal.action == Hold
    ensures GenerateSignal(cfg, num, st, market, portfolio, now).state.tradeCount == st.tradeCount
  {
    var r := GenerateSignal(cfg, num, st, market, portfolio, now);
    var scored := HighConvictionSignal(cfg, num, market);
    assert Abs(scored.score) <= 0.7;
  }

  /** Under the default configuration no run ever trades: from the initial
      state the trade count stays 0 and the strategy never goes long. */
  lemma {:induction false} DefaultConfigNeverTrades(num: Numerics, st: StrategyState, events: seq<Event>)
    requires Consistent(DefaultConfig(), st) && ValidEvents(events)
    requires st.tradeCount == 0 && st.lastSignal != Some(Buy)
    ensures Run(DefaultConfig(), num, st, events).tradeCount == 0
    ensures Run(DefaultConfig(), num, st, events).lastSignal != Some(Buy)
    decreases |events|
  {
    var cfg := DefaultConfig();
    if |events| > 0 {
      var e := events[0];
      var next := ApplyEvent(cfg, num, st, e);
      if e.Tick? {
        HighThresholdAlwaysHolds(cfg, num, st, e.market, e.portfolio, e.now);
        HoldKeepsPosition(cfg, num, st, e.market, e.portfolio, e.now);
      }
      assert ValidEvents(events[1..]) by {
        forall i | 0 <= i < |events[1..]| ensures events[1..][i].Tick? ==> ValidMarket(events[1..][i].market) {
          assert events[1..][i] == events[i + 1];
        }
      }
      DefaultConfigNeverTrades(num, next, events[1..]);
    }
  }

  /** A sell clears the entry price before `on_trade` hears of it, so
      reporting the executed sell right after it records nothing: no outcome,
      no change to the loss streak or the performance score. */
  lemma SellReportRecordsNothing(cfg: StrategyConfig, num: Numerics, st: StrategyState,
                                 market: MarketSnapshot, portfolio: Portfolio, now: int,
                                 price: real, size: real, timestamp: int)
    requires ValidConfig(cfg) && ValidMarket(market) && EntryUsable(st)
    ensures var r := GenerateSignal(cfg, num, st, market, portfolio, now);
            r.signal.action == Sell ==> OnTrade(r.state, r.signal, price, size, timestamp) == r.state
  {
  }

  /** The full round: a tick, then the report that its signal was executed.
      The report is always a no-op: a buy or hold is not a sell, and a sell
      has already cleared the entry price. */
  function TickAndReport(cfg: StrategyConfig, num: Numerics, st: StrategyState,
                         market: MarketSnapshot, portfolio: Portfolio, now: int,
                         price: real, size: real): (r: StrategyState)
    requires ValidConfig(cfg) && ValidMarket(market) && EntryUsable(st)
    ensures r == GenerateSignal(cfg, num, st, market, portfolio, now).state
    ensures r.winLossHistory == st.winLossHistory
    ensures r.recentPerformanceScore == st.recentPerformanceScore
  {
    var step := GenerateSignal(cfg, num, st, market, portfolio, now);
    OnTrade(step.state, step.signal, price, size, now)
  }

  /** So, driven as the host drives it, the win/loss history never grows and
      the recent-performance position factor stays 1.0. */
  lemma {:induction false} ProtocolNeverRecordsOutcomes(cfg: StrategyConfig, num: Numerics,
      st: StrategyState, rounds: seq<(MarketSnapshot, Portfolio, int, real, real)>)
    requires ValidConfig(cfg) && EntryUsable(st)
    requires forall i :: 0 <= i < |rounds| ==> ValidMarket(rounds[i].0)
    requires st.winLossHistory == []
    ensures RunRounds(cfg, num, st, rounds).winLossHistory == []
    ensures PerformanceFactor(RunRounds(cfg, num, st, rounds).winLossHistory) == 1.0
    decreases |rounds|
  {
    if |rounds| > 0 {
      var next := FirstRound(cfg, num, st, rounds);
      ProtocolNeverRecordsOutcomes(cfg, num, next, rounds[1..]);
    }
  }

  /** The state after the first round, with what the rest of the run needs:
      it is usable, it kept the outcome history, the later rounds are valid,
      and the run continues from it. */
  lemma FirstRound(cfg: StrategyConfig, num: Numerics, st: StrategyState,
                   rounds: seq<(MarketSnapshot, Portfolio, int, real, real)>)
    returns (next: StrategyState)
    requires ValidConfig(cfg) && EntryUsable(st) && |rounds| > 0
    requires forall i :: 0 <= i < |rounds| ==> ValidMarket(rounds[i].0)
    ensures EntryUsable(next) && next.winLossHistory == st.winLossHistory
    ensures forall i :: 0 <= i < |rounds[1..]| ==> ValidMarket(rounds[1..][i].0)
    ensures RunRounds(cfg, num, st, rounds) == RunRounds(cfg, num, next, rounds[1..])
  {
    var (m, p, t, price, size) := rounds[0];
    next := TickAndReport(cfg, num, st, m, p, t, price, size);
    NextRoundUsable(cfg, num, st, m, p, t, price, size);
    assert forall i :: 0 <= i < |rounds[1..]| ==> ValidMarket(rounds[1..][i].0) by {
      forall i | 0 <= i < |rounds[1..]| ensures ValidMarket(rounds[1..][i].0) {
        assert rounds[1..][i] == rounds[i + 1];
      }
    }
  }

  /** Rounds of tick-then-report, starting from `st`. */
  function RunRounds(cfg: StrategyConfig, num: Numerics, st: StrategyState,
                     rounds: seq<(MarketSnapshot, Portfolio, int, real, real)>): StrategyState
    requires ValidConfig(cfg) && EntryUsable(st)
    requires forall i :: 0 <= i < |rounds| ==> ValidMarket(rounds[i].0)
    decreases |rounds|
  {
    if |rounds| == 0 then st
    else
      var (m, p, t, price, size) := rounds[0];
      NextRoundUsable(cfg, num, st, m, p, t, price, size);
      assert forall i :: 0 <= i < |rounds[1..]| ==> ValidMarket(rounds[1..][i].0) by {
        forall i | 0 <= i < |rounds[1..]| ensures ValidMarket(rounds[1..][i].0) {
          assert rounds[1..][i] == rounds[i + 1];
        }
      }
      RunRounds(cfg, num, TickAndReport(cfg, num, st, m, p, t, price, size), rounds[1..])
  }

  /** A round leaves a state the next tick can run on. */
  lemma NextRoundUsable(cfg: StrategyConfig, num: Numerics, st: StrategyState,
                        market: MarketSnapshot, portfolio: Portfolio, now: int,
                        price: real, size: real)
    requires ValidConfig(cfg) && ValidMarket(market) && EntryUsable(st)
    ensures EntryUsable(TickAndReport(cfg, num, st, market, portfolio, now, price, size))
  {
  }
}

=== FILE: types.dfy ===
/** The records the strategy reads and keeps: its configuration, the market
    snapshot and portfolio it is handed, the signal it answers with, and its
    own mutable state as one immutable value. */
module Types {
  import opened Common

  /** The parameters read in the strategy's constructor. Periods are counts of
      price samples, percentages are fractions, `minTimeBetweenTrades` is in
      hours. */
  datatype StrategyConfig = StrategyConfig(
    convictionThreshold: real,
    rsiPeriod: int,
    rsiOverbought: real,
    rsiOversold: real,
    bbPeriod: int,
    bbStd: real,
    macdFast: int,
    macdSlow: int,
    macdSignal: int,
    basePositionPct: real,
    maxPositionPct: real,
    convictionPositionMultiplier: real,
    stopLossPct: real,
    takeProfitPct: real,
    trailingStopPct: real,
    maxDrawdownPct: real,
    consecutiveLossLimit: int,
    maxTrades: int,
    minTimeBetweenTrades: int)

  /** The defaults the constructor falls back on for absent keys. */
  function DefaultConfig(): StrategyConfig
  {
    StrategyConfig(
      convictionThreshold := 0.9,
      rsiPeriod := 14,
      rsiOverbought := 80.0,
      rsiOversold := 20.0,
      bbPeriod := 20,
      bbStd := 2.0,
      macdFast := 12,
      macdSlow := 26,
      macdSignal := 9,
      basePositionPct := 0.15,
      maxPositionPct := 0.4,
      convictionPositionMultiplier := 2.0,
      stopLossPct := 0.03,
      takeProfitPct := 0.15,
      trailingStopPct := 0.05,
      maxDrawdownPct := 0.2,
      consecutiveLossLimit := 2,
      maxTrades := 30,
      minTimeBetweenTrades := 6)
  }

  /** A configuration on which no indicator divides by zero or indexes an
      empty list: every period at least one, and a non-negative band width
      (which keeps the upper band above the average). */
  predicate ValidConfig(cfg: StrategyConfig)
  {
    && cfg.rsiPeriod >= 1
    && cfg.bbPeriod >= 1
    && cfg.macdFast >= 1
    && cfg.macdSlow >= 1
    && cfg.macdSignal >= 1
    && cfg.bbStd >= 0.0
  }

  /** The base template's `MarketSnapshot`, reduced to what the strategy
      reads. */
  datatype MarketSnapshot = MarketSnapshot(currentPrice: real, prices: seq<real>)

  /** Market data as an exchange delivers it: positive prices. */
  predicate ValidMarket(m: MarketSnapshot)
  {
    m.currentPrice > 0.0 && AllPositive(m.prices)
  }

  /** The base template's `Portfolio`: cash and quantity held. */
  datatype Portfolio = Portfolio(cash: real, quantity: real)

  /** A signal's action. As a remembered last signal, `Hold` stands for any
      string other than "buy" and "sell". */
  datatype Action = Buy | Sell | Hold

  /** One confirmation recorded by the conviction score. */
  datatype Evidence =
    | RsiOversold(rsi: real)
    | RsiOverbought(rsi: real)
    | BbOversold(bbScore: real)
    | BbOverbought(bbScore: real)
    | MacdBullish(macdScore: real)
    | MacdBearish(macdScore: real)

  /** Why the conviction score is what it is; an empty evidence list is the
      source's "no_conviction". */
  datatype ConvictionReason = InsufficientHistory | Evidence(tags: seq<Evidence>)

  /** Why the gate on trade count and spacing refused, or that it admitted. */
  datatype Admission = Admitted | MaxTradesReached | TooSoon(elapsedSeconds: int)

  /** The reason carried by a signal, one constructor per message the source
      can produce. */
  datatype Reason =
    | InsufficientData
    | TradeLimit(admission: Admission)
    | DrawdownLimit
    | LowConviction(lowScore: real)
    | Conviction(evidence: ConvictionReason, score: real)
    | AlreadyLong
    | NoLongToSell
    | TrailingStop(high: real, current: real)
    | StopLoss(lossPct: real)
    | TakeProfit(profitPct: real)
    | TimeExit
    | InsufficientCash
    | InvalidSize
    | NoPositionToSell

  /** The base template's `Signal`: action, size (zero for a hold) and reason. */
  datatype Signal = Signal(action: Action, size: real, reason: Reason)

  function HoldSignal(reason: Reason): Signal
  {
    Signal(Hold, 0.0, reason)
  }

  /** Every field the strategy instance mutates. Times are in seconds. */
  datatype StrategyState = StrategyState(
    lastSignal: Option<Action>,
    entryPrice: Option<real>,
    entryTime: Option<int>,
    trailingHigh: Option<real>,
    trailingLow: Option<real>,
    consecutiveLosses: int,
    peakPortfolioValue: real,
    priceHistory: seq<real>,
    winLossHistory: seq<bool>,
    tradeCount: int,
    lastTradeTime: Option<int>,
    recentPerformanceScore: real)

  /** The state a freshly constructed strategy starts in. */
  function Init(): StrategyState
  {
    StrategyState(
      lastSignal := None,
      entryPrice := None,
      entryTime := None,
      trailingHigh := None,
      trailingLow := None,
      consecutiveLosses := 0,
      peakPortfolioValue := 0.0,
      priceHistory := [],
      winLossHistory := [],
      tradeCount := 0,
      lastTradeTime := None,
      recentPerformanceScore := 1.0)
  }

  /** Python truthiness of an optional number: present and non-zero. */
  predicate Truthy(x: Option<real>)
  {
    x.Some? && x.value != 0.0
  }
}
